=== FILE: README.md ===
# Vocabulary API: request decisions

A model of the request-handling core of a small vocabulary-learning REST API
(Go, Fiber, MongoDB). Users register, log in for a 72-hour bearer token, and
keep collections of words. The model covers these parts:

- the handlers for collections, words, users and login;
- the bearer-token middleware that guards the mutating routes;
- the `validate` tags of the document types;
- the routing table that puts the middleware in front of eight routes.

Every handler is a pure function. It takes the request as the handler sees it:

- the path parameter;
- the body as Fiber's `BodyParser` decoded it;
- the `Locals` map the middleware filled.

It returns a `Handled` value, which pairs the reply with the store as the
handler leaves it. A Go runtime panic is the status `Panicked`. main.go:54
builds the app with `fiber.New()` and installs no recover middleware, so a
panic is not a per-request reply: it ends the server process. A panic from a
failed `.(string)` assertion on a missing local comes before any write.

The three MongoDB collections are three maps from ObjectID to document. What
the driver contributes is passed in:

- a generated id;
- the order a cursor yields;
- the answer to a lookup by e-mail.

bcrypt and the JWT library are abstract functions, each with a soundness
predicate.

ObjectIDs are concrete, twelve bytes each:

- `Hex` prints 24 lower-case digits.
- `FromHex` accepts 24 hex digits of either case.
- `FromHex(Hex(id)) == Some(id)` is proved.

This matters because the user routes compare the caller's id with the raw path
string.

Modules, in dependency order: `Wrappers`, `Json`, `ObjectIds`, `Models`, `Db`,
`Http`, `Passwords`, `Jwt`, `Middleware`, `CollectionHandlers`,
`WordHandlers`, `UserHandlers`, `LoginHandler`, `Router`.

Some behaviours of the code are worth stating plainly:

- **Admins have no bypass on collections and words.** The only role checks
  are in the user handlers (handlers/user.go:185 and 238); the admin route
  group in router/router.go:39-40 is commented out. The collection and word
  routes compare only the stored owner string with the caller
  (`CollectionHandlers.RoleIgnored`).
- **A failed login is a 403.** The handler's own annotation
  (handlers/login.go:21) documents a 401; the model follows the code
  (handlers/login.go:44 and 50).
- **A missing document is a 500.** The lookups by id answer 500 when FindOne
  finds nothing; no route answers 404.
- **Deleting a user has no existence check.** An authorized delete of an
  absent user answers 200.

## Model

| member | source | states |
|---|---|---|
| ObjectIds.HexRoundTrip | handlers/collection.go:103-107 | the printed id of a created document parses back to the same ObjectID |
| ObjectIds.FromHexCanonical | handlers/user.go:187 | printing a parsed path id gives the lower-cased path string, so a path id with upper-case hex is not the string a token carries |
| ObjectIds.FromHexIgnoresCase | handlers/user.go:152 | ObjectIDFromHex accepts the same ObjectID whatever the case of the hex letters |
| Models.ValidCollection | models/collection.go:7-8 | defines the tags of models.Collection: a name of 3 to 50 characters and a description of 3 to 200, both required |
| Models.ValidCollectionPatch | models/collection.go:13-14 | defines the tags of models.UpdateCollection: a name or description that is sent, even empty, must be within the same bounds |
| Models.ValidWord | models/word.go:7-10 | defines the tags of models.Word: a non-zero collection id, a word of 1 to 50 characters, a translation of 1 to 100, a difficulty from 1 to 5 |
| Models.ValidUser | models/user.go:7-9 | defines the tags of models.User: a username of 3 to 50 characters, a non-empty e-mail the `email` rule accepts, a password of at least 6 characters |
| Models.ValidUserPatch | models/user.go:25-29 | defines the tags of models.UpdateUser: each field that is sent is checked as in models.User |
| Models.Public | models/user.go:18-23 | defines the password-free projection UserWithoutPassword: id, username, e-mail and role |
| Models.ApplyCollectionPatch | handlers/collection.go:136-143 | the `$set` of a collection patch never changes the id or the owner |
| Models.ApplyWordPatch | handlers/word.go:128-141 | the `$set` of a word patch never changes the id |
| Models.ApplyUserPatch | handlers/user.go:164-178 | the `$set` of a user patch never changes the id or the role |
| Models.CollectionPatchKeepsValidity | models/collection.go:12-15 | a patch within its own bounds keeps a valid collection within models.Collection's bounds |
| Models.WordPatchCanBreakValidity | handlers/word.go:128-145 | word patches are not validated: a valid word can be patched to difficulty 9 or to the zero collection id |
| Db.Fetch | handlers/collection.go:37-43 | decoding a cursor yields one document per listed key, in cursor order |
| Db.FetchWhere | handlers/word.go:30-43 | a filtered cursor yields exactly the documents of the scan that satisfy the filter, none twice when the scan has no duplicates |
| Db.FetchWhereSplits | handlers/word.go:37-43 | filtering keeps cursor order: the filter of a concatenated cursor order is the concatenation of the filters |
| Db.ScanCoversValues | handlers/collection.go:31-44 | a full scan yields every stored document and no other |
| Db.ScanSize | handlers/user.go:21-47 | a full scan yields as many documents as are stored |
| CollectionHandlers.IsOwner | handlers/collection.go:163 | defines the owner rule of the collection routes: the stored `userId` string equals the caller's id exactly, whatever the role |
| CollectionHandlers.GetCollections | handlers/collection.go:28-45 | 200 with exactly the stored collections, as many as are stored, in cursor order |
| CollectionHandlers.GetCollectionById | handlers/collection.go:56-69 | 400 for an unparsable id; 500 for an absent one; otherwise 200 with the stored document |
| CollectionHandlers.CreateCollection | handlers/collection.go:81-109 | 400 on a bad body, then a panic without a `user` local, then 400 outside the tag bounds; 201 iff the key is free and 500 if it is taken; the owner is the token's user whatever the body says; nothing is stored otherwise |
| CollectionHandlers.UpdateCollection | handlers/collection.go:123-176 | the 400s in the order id, body, empty patch, bounds; then a panic without a `user` local; 500 when absent; 403 iff the caller is not the owner and 200 iff they are; the reply carries the document from before the write; no collection changes owner |
| CollectionHandlers.DeleteCollection | handlers/collection.go:188-215 | 400, panic, 500, then 403 iff not the owner and 200 iff the owner; only that collection is removed, its words and the users stay |
| CollectionHandlers.RoleIgnored | handlers/collection.go:155-165 | the collection routes answer the same whatever role the caller has |
| CollectionHandlers.CreatedCollectionIsFound | handlers/collection.go:56-109 | GET of a created collection's printed id answers that collection |
| CollectionHandlers.PatchedCollectionIsRead | handlers/collection.go:159-168 | after a successful patch, GET answers the patched document |
| CollectionHandlers.OnlyCreatorDeletes | handlers/collection.go:196-214 | after a create, another user's delete is a 403 and the creator's a 200, after which GET is a 500 |
| WordHandlers.WordOwner | handlers/word.go:151-162 | defines the two-hop owner of a word: the `userId` of the collection the stored word is filed under, or none when the word or that collection is not stored |
| WordHandlers.GetWordsByCollection | handlers/word.go:22-45 | 400 for an unparsable id; otherwise 200 with exactly the stored words filed under that collection id, each once when every word is filed under its own id |
| WordHandlers.CreateWord | handlers/word.go:59-101 | the 400s in the order id, body, tag bounds; then a panic, 500 for an absent collection, 403 iff not its owner, 201 iff owner and key free, 500 if the key is taken; the word is filed under the path's collection |
| WordHandlers.UpdateWord | handlers/word.go:115-176 | the 400s, panic, 500 for a missing word or collection, 403 iff the caller does not own the word's collection; the store is written iff they do; the reply is a 200 only when word, translation and difficulty were all sent, otherwise the handler panics after the write |
| WordHandlers.DeleteWord | handlers/word.go:187-220 | the owner is resolved in two hops, from word to collection to owner; 200 iff the caller is that owner, and then only that word is removed |
| WordHandlers.BodyCollectionIdIgnored | handlers/word.go:72-89 | a create body's own non-zero collection id does not affect the outcome |
| WordHandlers.ReparentingUnchecked | handlers/word.go:130-174 | a word can be moved to a collection that is absent or not the caller's; the word's owner becomes the destination's; a patch with only a collection id panics after writing |
| WordHandlers.DifficultyUnchecked | handlers/word.go:133-172 | a difficulty outside 1..5 is stored and answered with 200 |
| WordHandlers.OrphanedWordsStay | handlers/word.go:151-210 | after its collection is deleted, its words are still listed, but every caller's non-empty patch or delete of one is a 500 |
| UserHandlers.MayActOnUser | handlers/user.go:185-190 | defines the user routes' privilege rule: the caller's role is "admin", or the caller's id string equals the raw path string |
| UserHandlers.GetUsers | handlers/user.go:21-48 | 200 with one entry per stored user, in cursor order, each the user without the password |
| UserHandlers.GetUserById | handlers/user.go:59-78 | 400 for an unparsable id; 500 for an absent one; otherwise 200 with the user without the password |
| UserHandlers.CreateUser | handlers/user.go:90-132 | 500 or 422 for an undecodable body; 400 for an empty field, then for tag bounds; 500 if hashing fails; 201 iff the key is free and 500 if it is taken, storing the hashed password and role "user" whatever the body says |
| UserHandlers.HashPatch | handlers/user.go:164-182 | hashing the password keeps a patch empty exactly when it was empty |
| UserHandlers.UpdateUser | handlers/user.go:145-214 | the checks run in the order role local, id, user_id local, body, hashing, empty patch, privilege, existence; 500 for an allowed patch of an absent user; 403 iff the caller is neither admin nor the raw path id; 200 iff allowed and present; roles and the set of users never change |
| UserHandlers.DeleteUser | handlers/user.go:224-252 | panic without the role or user_id local; 400, then 403 iff neither admin nor self, otherwise 200, removing that key whether or not it was stored |
| UserHandlers.PasswordUpdateStores | handlers/user.go:172-200 | a successful patch that sends a password stores its hash on the addressed record and leaves every other user unchanged |
| UserHandlers.PasswordsNeverLeak | handlers/user.go:37-77 | the user read routes answer the same whatever the stored passwords are |
| UserHandlers.UpperCaseSelfIdRefused | handlers/user.go:232-243 | a non-admin addressing their own record with upper-case hex is refused, though the same id in lower case succeeds |
| UserHandlers.UsernameBoundsUnchecked | handlers/user.go:164-200 | an admin can set a username of length 0, a patch that models.UpdateUser's tags reject |
| LoginHandler.Login | handlers/login.go:24-62 | 400 for an undecodable body; the same 403 for an unknown e-mail and a wrong password; 200 iff the password matches and a token is issued, carrying the stored user's id and role; 500 if issuing fails |
| Middleware.ValidateJwt | middlewares/middleware.go:51-70 | a token is accepted iff it decodes, names an HMAC algorithm, its signature checks under the secret and its exp and nbf hold, an `exp` or `nbf` of 0 counting as absent |
| Middleware.GenerateJwtAsWritten | middlewares/middleware.go:32-49 | fails iff signing fails; a sound library reads back an HS256 token with `user_id` and `exp` = now + 72 h only |
| Middleware.GenerateJwt | handlers/login.go:54 | fails iff signing fails; a sound library reads back an HS256 token with `user_id`, `role` and `exp` = now + 72 h |
| Middleware.CheckHeader | middlewares/middleware.go:14-26 | an empty header is a 401; a non-empty header shorter than seven characters panics; otherwise the rest after seven characters is validated |
| Middleware.AuthMiddlewareAsWritten | middlewares/middleware.go:12-30 | 401 without a header and for a token that fails validation; panic iff it is shorter than the prefix; forwarded iff the token validates, and then only the `user` local is set, to the `user_id` claim |
| Middleware.AuthMiddleware | middlewares/middleware.go:12-30 | 401 without a header and for a token that fails validation; panic iff it is shorter than the prefix; forwarded iff the token validates, with `user` and `user_id` set from the `user_id` claim and `role` from the `role` claim |
| Middleware.PrefixNotChecked | middlewares/middleware.go:19 | the seven characters in front of the token are never inspected |
| Middleware.IssuedTokenAuthenticates | middlewares/middleware.go:32-70 | a token issued at a time t past the epoch passes the gate exactly before t + 72 h, and yields the id and role it was issued for |
| Middleware.ZeroExpiryNeverExpires | middlewares/middleware.go:51-66 | a validly signed token whose `exp` is 0 passes the gate at any time |
| Middleware.IssuedTokenAuthenticatesAsWritten | middlewares/middleware.go:28-36 | a token as GenerateJWT writes it passes for 72 h and yields only the `user` local |
| Middleware.NonHmacRefused | middlewares/middleware.go:52-55 | a token naming a non-HMAC algorithm is a 401 whatever its signature |
| Router.ServePublic | router/router.go:18-25 | the public routes run their handler with no middleware; none answers 401; only user registration changes the store |
| Router.ServePrivate | router/router.go:29-37 | the protected routes run their handler; none answers 401; every handler keeps each document filed under its own id |
| Router.Guarded | router/router.go:29 | the middleware in front of a protected route: a refusal is a 401 and a header panic a panic, both before the handler and leaving the store alone; a forwarded request gets exactly the handler's answer |
| Router.Serve | router/router.go:18-37 | the reply is a 401 iff the route is protected and the middleware refuses, which no handler does; a protected route not forwarded leaves the store unchanged; a forwarded one runs its handler with the middleware's locals; public reads never change the store |
| Router.ServeAsWritten | router/router.go:18-37 | the same statements with the middleware as written |
| Router.PublicRoutesIgnoreHeader | router/router.go:18-25 | public routes answer the same whatever Authorization header comes with them |
| Router.UserRoutesPanicAsWritten | middlewares/middleware.go:28 | as written, every request to PATCH or DELETE /users/:id with a valid token panics |
| Router.IssuedTokenActsOnOwnUser | handlers/user.go:224-252 | with the corrected middleware, a non-admin's token deletes their own record and is refused another's |
| Router.RegisterThenLogin | handlers/login.go:40-61 | after registering, login with the same e-mail and password returns a token for the new id and role "user" |
| Router.NewPasswordLogsIn | handlers/user.go:172-200 | after a user changes their password, and provided no other user has their e-mail (the handlers do not enforce uniqueness), every truthful lookup finds them and login with the new password succeeds |
| Router.LoginWithStoredPassword | handlers/login.go:40-61 | a user whose stored hash was made from a password, and whose e-mail is unique, is found by every truthful lookup and logs in with that password |
| Router.OwnerTokenCreatesAndDeletes | handlers/collection.go:81-215 | a token's user owns the collection it creates; the delete is a 401 without a header, a 403 with another user's token, a 200 with the owner's; GET then answers 500 |

## Left out

- Driver and network faults: `Find`, `InsertOne`, `UpdateOne` and `DeleteOne` errors, and cursor decode errors, are not modelled. Only "document absent" and "duplicate key" reach a 500.
- Reply bodies: message strings, validator error texts, and JSON `null` versus `[]` for an empty list are abstracted to a failure kind or the documents returned.
- Header slicing: Go slices the Authorization header by bytes, but the model slices it by characters. Non-ASCII headers are therefore not modelled exactly.
- bcrypt and the JWT encoding: the internals, and the 72-byte password limit, are abstract functions. Only their soundness is assumed where a lemma needs it.
- JWT claims: `iat`, `aud` and `iss` checks are not modelled, and neither are fractional `exp` values. The issued tokens carry none of these.
- Middleware.IssuedTokenAuthenticates: stated for an issuing clock at or past the Unix epoch. A token issued exactly 72 h before the epoch would carry `exp` 0, which golang-jwt reads as no expiry (Middleware.ZeroExpiryNeverExpires).
- Concurrency between requests: each request runs against one store value.
- main.go, config/config.go and the Swagger and root routes: these are start-up and plumbing.
- The validator's `email` rule is a parameter `isEmail`.
- `GET /words/:id`: its handler GetWordById is not part of this model.
- The type models.UpdateWord is not part of this model. It is taken as four optional fields, as its uses in handlers/word.go require.
- Logging (`fmt.Println`) is left out.

## Findings

| source | as written | input that shows it | evidently intended | confidence | as-written member | corrected member |
|---|---|---|---|---|---|---|
| middlewares/middleware.go:28 | the middleware stores only `Locals("user")`, but handlers/user.go:147 and 158, and 227 and 230, assert `Locals("role")` and `Locals("user_id")` to strings | any unexpired token on DELETE /users/:id: the `.(string)` assertion on the nil `role` panics | the middleware also stores `user_id` and the token's `role` | not executed | Router.UserRoutesPanicAsWritten | Router.IssuedTokenActsOnOwnUser |
| middlewares/middleware.go:32-37 | GenerateJWT takes only the user id and puts no role claim in the token, while handlers/login.go:54 calls it with the id and the role | none at run time: the call at handlers/login.go:54 passes two arguments to a one-parameter function, so the package fails to build; with the one-argument version every token carries `user_id` and `exp` only, so no role reaches the handlers | GenerateJWT(userID, role) adds a `role` claim | not executed | Middleware.IssuedTokenAuthenticatesAsWritten | Middleware.IssuedTokenAuthenticates |

=== FILE: collection_handlers.dfy ===
/**
 * handlers/collection.go: the collection routes. A collection may be changed
 * or deleted only by the user whose id string is stored as its owner; the
 * caller's role is never consulted.
 */
module CollectionHandlers {
  import opened Wrappers
  import opened ObjectIds
  import opened Models
  import opened Db
  import opened Http
  import Json

  /** The owner-only rule: the stored owner string equals the caller's id exactly. */
  predicate IsOwner(c: Collection, caller: string)
  {
    c.userId == caller
  }

  /** No collection changed hands, and none appeared. */
  predicate OwnersKept(s: Store, s': Store)
  {
    forall k :: k in s'.collections ==> k in s.collections && s'.collections[k].userId == s.collections[k].userId
  }

  /** GET /collections: every stored collection, in cursor order. */
  function GetCollections(s: Store, order: seq<ObjectId>): (r: Reply)
    requires Lists(order, s.collections)
    ensures r.status == OK && r.payload.CollectionDocs?
    ensures |r.payload.collectionList| == |order| == |s.collections|
    ensures forall c :: c in r.payload.collectionList <==> c in s.collections.Values
    ensures forall i :: 0 <= i < |order| ==> r.payload.collectionList[i] == s.collections[order[i]]
  {
    ScanSize(order, s.collections);
    ScanCoversValues(order, s.collections);
    Reply(OK, CollectionDocs(Fetch(order, s.collections)))
  }

  /** GET /collections/:id. A missing collection is a 500, not a 404. */
  function GetCollectionById(idStr: string, s: Store): (r: Reply)
    ensures FromHex(idStr).None? ==> r == Reply(BadRequest, Error(InvalidId))
    ensures FromHex(idStr).Some? && FromHex(idStr).value !in s.collections ==>
      r == Reply(InternalError, Error(InternalServer))
    ensures r.status == OK <==> FromHex(idStr).Some? && FromHex(idStr).value in s.collections
    ensures r.status == OK ==> r.payload == CollectionDoc(s.collections[FromHex(idStr).value])
  {
    match FromHex(idStr)
    case None => Reply(BadRequest, Error(InvalidId))
    case Some(k) =>
      if k !in s.collections then Reply(InternalError, Error(InternalServer))
      else Reply(OK, CollectionDoc(s.collections[k]))
  }

  /**
   * POST /collections. The owner is the caller from the token, whatever
   * `userId` the body sent; the body's own non-zero `_id` is honoured.
   */
  function CreateCollection(locals: Locals, body: Body<Collection>, generated: ObjectId, s: Store): (r: Handled)
    ensures !body.Parsed? ==> r == Reject(BadRequest, InvalidBody, s)
    ensures body.Parsed? && LocalString(locals, "user").None? ==> r == Crash(s)
    ensures body.Parsed? && LocalString(locals, "user").Some? && !ValidCollection(body.value) ==>
      r == Reject(BadRequest, ValidationFailed, s)
    ensures r.reply.status == Created <==>
      && body.Parsed? && LocalString(locals, "user").Some? && ValidCollection(body.value)
      && InsertKey(body.value.id, generated) !in s.collections
    ensures
      (&& body.Parsed? && LocalString(locals, "user").Some? && ValidCollection(body.value)
       && InsertKey(body.value.id, generated) in s.collections) ==> r == Reject(InternalError, InternalServer, s)
    ensures r.reply.status != Created ==> r.store == s
    ensures r.reply.status == Created ==>
      && r.reply.payload.CollectionDoc?
      && var c := r.reply.payload.collection;
      && c.userId == LocalString(locals, "user").value
      && c.id == InsertKey(body.value.id, generated)
      && c.name == body.value.name && c.description == body.value.description
      && c.id !in s.collections
      && r.store == s.(collections := s.collections[c.id := c])
    ensures Keyed(s) ==> Keyed(r.store)
  {
    if !body.Parsed? then Reject(BadRequest, InvalidBody, s)
    else match LocalString(locals, "user")
      case None => Crash(s)
      case Some(caller) =>
        var col := body.value.(userId := caller);
        if !ValidCollection(col) then Reject(BadRequest, ValidationFailed, s)
        else
          var key := InsertKey(col.id, generated);
          if key in s.collections then Reject(InternalError, InternalServer, s)
          else
            var stored := col.(id := key);
            Handled(Reply(Created, CollectionDoc(stored)), s.(collections := s.collections[key := stored]))
  }

  /** UpdateCollection gets past every check that precedes its store read. */
  predicate PatchReachesStore(locals: Locals, idStr: string, body: Body<CollectionPatch>)
  {
    && FromHex(idStr).Some? && body.Parsed? && !body.value.IsEmpty()
    && ValidCollectionPatch(body.value) && LocalString(locals, "user").Some?
  }

  /**
   * PATCH /collections/:id. The 400 checks come first, in the order id, body,
   * empty patch, bounds, and involve neither the caller nor the store; only
   * the owner may patch; the reply carries the collection as it was before.
   */
  function UpdateCollection(locals: Locals, idStr: string, body: Body<CollectionPatch>, s: Store): (r: Handled)
    ensures FromHex(idStr).None? ==> r == Reject(BadRequest, InvalidId, s)
    ensures FromHex(idStr).Some? && !body.Parsed? ==> r == Reject(BadRequest, InvalidBody, s)
    ensures FromHex(idStr).Some? && body.Parsed? && body.value.IsEmpty() ==>
      r == Reject(BadRequest, NoFieldsToUpdate, s)
    ensures FromHex(idStr).Some? && body.Parsed? && !body.value.IsEmpty() && !ValidCollectionPatch(body.value) ==>
      r == Reject(BadRequest, ValidationFailed, s)
    ensures
      (&& FromHex(idStr).Some? && body.Parsed? && !body.value.IsEmpty() && ValidCollectionPatch(body.value)
       && LocalString(locals, "user").None?) ==> r == Crash(s)
    ensures PatchReachesStore(locals, idStr, body) && FromHex(idStr).value !in s.collections ==>
      r == Reject(InternalError, InternalServer, s)
    ensures r.reply.status == Forbidden <==>
      && PatchReachesStore(locals, idStr, body) && FromHex(idStr).value in s.collections
      && !IsOwner(s.collections[FromHex(idStr).value], LocalString(locals, "user").value)
    ensures r.reply.status == OK <==>
      && PatchReachesStore(locals, idStr, body) && FromHex(idStr).value in s.collections
      && IsOwner(s.collections[FromHex(idStr).value], LocalString(locals, "user").value)
    ensures r.reply.status != OK ==> r.store == s
    ensures r.reply.status == OK ==>
      var k := FromHex(idStr).value;
      && r.reply.payload == CollectionDoc(s.collections[k])
      && r.store == s.(collections := s.collections[k := ApplyCollectionPatch(s.collections[k], body.value)])
    ensures OwnersKept(s, r.store) && r.store.collections.Keys == s.collections.Keys
    ensures Keyed(s) ==> Keyed(r.store)
  {
    match FromHex(idStr)
    case None => Reject(BadRequest, InvalidId, s)
    case Some(k) =>
      if !body.Parsed? then Reject(BadRequest, InvalidBody, s)
      else if body.value.IsEmpty() then Reject(BadRequest, NoFieldsToUpdate, s)
      else if !ValidCollectionPatch(body.value) then Reject(BadRequest, ValidationFailed, s)
      else match LocalString(locals, "user")
        case None => Crash(s)
        case Some(caller) =>
          if k !in s.collections then Reject(InternalError, InternalServer, s)
          else if !IsOwner(s.collections[k], caller) then Reject(Forbidden, NotAuthorized, s)
          else
            var before := s.collections[k];
            Handled(Reply(OK, CollectionDoc(before)),
                    s.(collections := s.collections[k := ApplyCollectionPatch(before, body.value)]))
  }

  /**
   * DELETE /collections/:id. Only the owner may delete; only the collection
   * document goes, its words stay in the store.
   */
  function DeleteCollection(locals: Locals, idStr: string, s: Store): (r: Handled)
    ensures FromHex(idStr).None? ==> r == Reject(BadRequest, InvalidId, s)
    ensures FromHex(idStr).Some? && LocalString(locals, "user").None? ==> r == Crash(s)
    ensures FromHex(idStr).Some? && LocalString(locals, "user").Some? && FromHex(idStr).value !in s.collections ==>
      r == Reject(InternalError, InternalServer, s)
    ensures r.reply.status == Forbidden <==>
      && FromHex(idStr).Some? && LocalString(locals, "user").Some? && FromHex(idStr).value in s.collections
      && !IsOwner(s.collections[FromHex(idStr).value], LocalString(locals, "user").value)
    ensures r.reply.status == OK <==>
      && FromHex(idStr).Some? && LocalString(locals, "user").Some? && FromHex(idStr).value in s.collections
      && IsOwner(s.collections[FromHex(idStr).value], LocalString(locals, "user").value)
    ensures r.reply.status != OK ==> r.store == s
    ensures r.reply.status == OK ==>
      r.reply.payload == Message && r.store == s.(collections := s.collections - {FromHex(idStr).value})
    ensures r.store.words == s.words && r.store.users == s.users
    ensures OwnersKept(s, r.store)
    ensures Keyed(s) ==> Keyed(r.store)
  {
    match FromHex(idStr)
    case None => Reject(BadRequest, InvalidId, s)
    case Some(k) =>
      match LocalString(locals, "user")
      case None => Crash(s)
      case Some(caller) =>
        if k !in s.collections then Reject(InternalError, InternalServer, s)
        else if !IsOwner(s.collections[k], caller) then Reject(Forbidden, NotAuthorized, s)
        else Handled(Reply(OK, Message), s.(collections := s.collections - {k}))
  }

  /** The collection routes never read the caller's role, so an admin who is not the owner is refused too. */
  lemma RoleIgnored(locals: Locals, role: Json.Value, idStr: string, body: Body<CollectionPatch>, s: Store)
    ensures UpdateCollection(locals["role" := role], idStr, body, s) == UpdateCollection(locals, idStr, body, s)
    ensures DeleteCollection(locals["role" := role], idStr, s) == DeleteCollection(locals, idStr, s)
  {
    assert LocalString(locals["role" := role], "user") == LocalString(locals, "user");
  }

  /** A collection just created is what GET /collections/:id answers for its printed id. */
  lemma CreatedCollectionIsFound(locals: Locals, body: Body<Collection>, generated: ObjectId, s: Store)
    requires CreateCollection(locals, body, generated, s).reply.status == Created
    ensures
      var h := CreateCollection(locals, body, generated, s);
      var c := h.reply.payload.collection;
      GetCollectionById(Hex(c.id), h.store) == Reply(OK, CollectionDoc(c))
  {
    var c := CreateCollection(locals, body, generated, s).reply.payload.collection;
    HexRoundTrip(c.id);
  }

  /** After a successful patch, GET /collections/:id answers the patched document. */
  lemma PatchedCollectionIsRead(locals: Locals, idStr: string, body: Body<CollectionPatch>, s: Store)
    requires UpdateCollection(locals, idStr, body, s).reply.status == OK
    ensures
      var k := FromHex(idStr).value;
      GetCollectionById(idStr, UpdateCollection(locals, idStr, body, s).store) ==
        Reply(OK, CollectionDoc(ApplyCollectionPatch(s.collections[k], body.value)))
  {
  }

  /**
   * After a create, anyone but the creator is refused the delete; the creator
   * succeeds, and afterwards the collection reads back as a server error.
   */
  lemma OnlyCreatorDeletes(creator: Locals, other: Locals, body: Body<Collection>, generated: ObjectId, s: Store)
    requires CreateCollection(creator, body, generated, s).reply.status == Created
    requires LocalString(other, "user").Some? && LocalString(other, "user") != LocalString(creator, "user")
    ensures
      var h := CreateCollection(creator, body, generated, s);
      var id := Hex(h.reply.payload.collection.id);
      && DeleteCollection(other, id, h.store) == Reject(Forbidden, NotAuthorized, h.store)
      && DeleteCollection(creator, id, h.store).reply.status == OK
      && GetCollectionById(id, DeleteCollection(creator, id, h.store).store) == Reply(InternalError, Error(InternalServer))
  {
    var h := CreateCollection(creator, body, generated, s);
    HexRoundTrip(h.reply.payload.collection.id);
  }
}

=== FILE: db.dfy ===
/**
 * The document store, abstracted: three maps from `_id` to document, in place
 * of the MongoDB collections `collections`, `words` and `users`.
 */
module Db {
  import opened Wrappers
  import opened ObjectIds
  import opened Models

  datatype Store = Store(
    collections: map<ObjectId, Collection>,
    words: map<ObjectId, Word>,
    users: map<ObjectId, User>)

  /** Every document is filed under its own `_id`. */
  predicate Keyed(s: Store)
  {
    && (forall k :: k in s.collections ==> s.collections[k].id == k)
    && (forall k :: k in s.words ==> s.words[k].id == k)
    && (forall k :: k in s.users ==> s.users[k].id == k)
  }

  /** `order` lists each key of `m` exactly once: the order a cursor over the whole collection yields. */
  predicate Lists<V>(order: seq<ObjectId>, m: map<ObjectId, V>)
  {
    && (forall i :: 0 <= i < |order| ==> order[i] in m)
    && (forall k :: k in m ==> k in order)
    && (forall i, j :: 0 <= i < j < |order| ==> order[i] != order[j])
  }

  /**
   * The `_id` InsertOne stores a document under: the body's own `_id` when it
   * is non-zero (bson omitempty drops only the zero value), else the one the
   * driver generates.
   */
  function InsertKey(bodyId: ObjectId, generated: ObjectId): ObjectId
  {
    if bodyId == NilObjectId then generated else bodyId
  }

  /** FindOne({"email": email}) answered `found`: some user with that e-mail, or None when there is none. */
  predicate FindsByEmail(users: map<ObjectId, User>, email: string, found: Option<ObjectId>)
  {
    match found
    case None => forall k :: k in users ==> users[k].email != email
    case Some(k) => k in users && users[k].email == email
  }

  /** No value occurs twice. */
  predicate Distinct<V(==)>(xs: seq<V>)
  {
    forall i, j :: 0 <= i < j < |xs| ==> xs[i] != xs[j]
  }

  /** Decoding the documents a cursor yields, in cursor order. */
  function Fetch<V>(order: seq<ObjectId>, m: map<ObjectId, V>): (r: seq<V>)
    requires forall i :: 0 <= i < |order| ==> order[i] in m
    ensures |r| == |order|
    ensures forall i :: 0 <= i < |order| ==> r[i] == m[order[i]]
  {
    if order == [] then [] else [m[order[0]]] + Fetch(order[1..], m)
  }

  /** The documents of a cursor that satisfy a filter, in cursor order. */
  function FetchWhere<V(==,!new)>(order: seq<ObjectId>, m: map<ObjectId, V>, keep: V -> bool): (r: seq<V>)
    requires forall i :: 0 <= i < |order| ==> order[i] in m
    ensures forall v :: v in r <==> v in Fetch(order, m) && keep(v)
    ensures Distinct(Fetch(order, m)) ==> Distinct(r)
  {
    if order == [] then []
    else
      var rest := FetchWhere(order[1..], m, keep);
      var x := m[order[0]];
      assert Fetch(order, m) == [x] + Fetch(order[1..], m);
      if keep(x) then
        assert Distinct(Fetch(order, m)) ==> Distinct(Fetch(order[1..], m)) && x !in Fetch(order[1..], m);
        [x] + rest
      else rest
  }

  /** Filtering keeps cursor order: filtering a concatenation concatenates the filtered parts. */
  lemma {:induction false} FetchWhereSplits<V(!new)>(o1: seq<ObjectId>, o2: seq<ObjectId>, m: map<ObjectId, V>, keep: V -> bool)
    requires forall i :: 0 <= i < |o1| ==> o1[i] in m
    requires forall i :: 0 <= i < |o2| ==> o2[i] in m
    ensures forall i :: 0 <= i < |o1 + o2| ==> (o1 + o2)[i] in m
    ensures FetchWhere(o1 + o2, m, keep) == FetchWhere(o1, m, keep) + FetchWhere(o2, m, keep)
  {
    if o1 == [] {
      assert o1 + o2 == o2;
    } else {
      var o := o1 + o2;
      assert o[0] == o1[0] && o[1..] == o1[1..] + o2;
      FetchWhereSplits(o1[1..], o2, m, keep);
      var head := if keep(m[o1[0]]) then [m[o1[0]]] else [];
      var x, y := FetchWhere(o1[1..], m, keep), FetchWhere(o2, m, keep);
      assert head + (x + y) == (head + x) + y;
    }
  }

  /** A full scan yields every stored document and nothing else. */
  lemma ScanCoversValues<V>(order: seq<ObjectId>, m: map<ObjectId, V>)
    requires Lists(order, m)
    ensures forall v :: v in Fetch(order, m) <==> v in m.Values
  {
    var r := Fetch(order, m);
    forall v | v in m.Values
      ensures v in r
    {
      var k :| k in m && m[k] == v;
      var i :| 0 <= i < |order| && order[i] == k;
      assert r[i] == v;
    }
  }

  /** A full scan yields as many documents as are stored. */
  lemma {:induction false} ScanSize<V>(order: seq<ObjectId>, m: map<ObjectId, V>)
    requires Lists(order, m)
    ensures |order| == |m|
  {
    if order == [] {
      assert m.Keys == {};
    } else {
      var m' := m - {order[0]};
      forall k | k in m'
        ensures k in order[1..]
      {
        var i :| 0 <= i < |order| && order[i] == k;
        assert i != 0;
        assert order[1..][i - 1] == k;
      }
      assert Lists(order[1..], m');
      ScanSize(order[1..], m');
      assert m'.Keys == m.Keys - {order[0]};
    }
  }
}

=== FILE: http.dfy ===
/**
 * What a handler sees of a Fiber request and what it answers: a status, a
 * payload (the message strings and JSON shapes of models/responses.go are
 * abstracted to a failure kind or the documents returned), and the store
 * after the call.
 */
module Http {
  import opened Wrappers
  import Json
  import opened Models
  import opened Db

  /** The HTTP statuses the handlers use, plus a Go runtime panic. */
  datatype Status =
    | OK | Created | BadRequest | Unauthorized | Forbidden | UnprocessableEntity | InternalError
    | Panicked

  /** Why a request was refused; each stands for one error message of the source. */
  datatype Failure =
    | InvalidId | InvalidBody | NoFieldsToUpdate | ValidationFailed | MissingFields
    | NotAuthorized | InternalServer | HashingFailed | InvalidCredentials | TokenFailed
    | MissingToken | InvalidToken

  datatype Payload =
    | NoPayload
    | Error(failure: Failure)
    | Message
    | CollectionDoc(collection: Collection)
    | CollectionDocs(collectionList: seq<Collection>)
    | WordDoc(word: Word)
    | WordDocs(wordList: seq<Word>)
    | UserDoc(user: PublicUser)
    | UserDocs(userList: seq<PublicUser>)
    | TokenDoc(token: string)

  datatype Reply = Reply(status: Status, payload: Payload)

  /** A handler's reply together with the store it leaves behind. */
  datatype Handled = Handled(reply: Reply, store: Store)

  /** `c.BodyParser` into a struct: the decoded value, a decode error, or an unsupported content type. */
  datatype Body<T> = Parsed(value: T) | Malformed | UnsupportedMedia

  /** `c.Locals`: the per-request values the middleware hands to the handler. */
  type Locals = map<string, Json.Value>

  /** `c.Locals(key).(string)`: None where Go's type assertion panics. */
  function LocalString(locals: Locals, key: string): Option<string>
  {
    if key in locals && locals[key].Str? then Some(locals[key].s) else None
  }

  /** An error reply that leaves the store as it was. */
  function Reject(status: Status, failure: Failure, s: Store): Handled
  {
    Handled(Reply(status, Error(failure)), s)
  }

  /** A panic before any write. */
  function Crash(s: Store): Handled
  {
    Handled(Reply(Panicked, NoPayload), s)
  }
}

=== FILE: json.dfy ===
/** The decoded JSON values that reach the handlers through JWT claims and `c.Locals`. */
module Json {

  /** A string, a number (integral in this model), or anything else (an object, a bool, null). */
  datatype Value = Str(s: string) | Num(n: int) | Other
}

=== FILE: jwt.dfy ===
/**
 * The parts of golang-jwt/jwt v5 the middleware relies on. Signing, the
 * compact encoding and the HMAC check are abstract functions; the default
 * time checks of the claims validator are written out.
 */
module Jwt {
  import opened Wrappers
  import opened Json

  /** The `alg` header values the library knows. */
  datatype Alg =
    | HS256 | HS384 | HS512 | RS256 | RS384 | RS512 | ES256 | ES384 | ES512
    | PS256 | PS384 | PS512 | EdDSA | NoSignature

  /** `token.Method.(*jwt.SigningMethodHMAC)` succeeds. */
  predicate IsHmac(a: Alg)
  {
    a.HS256? || a.HS384? || a.HS512?
  }

  /** jwt.MapClaims. */
  type Claims = map<string, Value>

  /** A token's header algorithm and claims. */
  datatype Token = Token(alg: Alg, claims: Claims)

  /**
   * `sign(t, key)` is NewWithClaims(...).SignedString(key) (None is its error
   * return); `decode(s)` is the header and payload decoding of jwt.Parse
   * (None for a malformed string); `signatureValid(s, key)` is the signature
   * check jwt.Parse makes with the key the key function returns.
   */
  datatype Library = Library(
    sign: (Token, string) -> Option<string>,
    decode: string -> Option<Token>,
    signatureValid: (string, string) -> bool)

  /** A string the library signed decodes to what was signed and carries a valid signature for that key. */
  ghost predicate SoundSigner(lib: Library)
  {
    forall t, key :: lib.sign(t, key).Some? ==>
      lib.decode(lib.sign(t, key).value) == Some(t) && lib.signatureValid(lib.sign(t, key).value, key)
  }

  /**
   * How MapClaims reads a numeric date: an absent claim and the number 0 both
   * mean "no date"; any other number is a date; anything else is an error.
   */
  predicate DateAbsent(claims: Claims, key: string)
  {
    key !in claims || claims[key] == Num(0)
  }

  /**
   * The validator's default time checks at Unix second `now`: an `exp` date
   * must be later than now, an `nbf` date not later than now; either may be
   * absent (or 0), but a present non-number fails.
   */
  predicate TimeValid(claims: Claims, now: int)
  {
    && (!DateAbsent(claims, "exp") ==> claims["exp"].Num? && now < claims["exp"].n)
    && (!DateAbsent(claims, "nbf") ==> claims["nbf"].Num? && claims["nbf"].n <= now)
  }
}

=== FILE: login_handler.dfy ===
/**
 * handlers/login.go: e-mail and password in, session token out. Both ways
 * of failing, an unknown e-mail and a wrong password, give the same reply.
 */
module LoginHandler {
  import opened Wrappers
  import opened ObjectIds
  import opened Models
  import opened Db
  import opened Http
  import opened Passwords
  import opened Jwt
  import opened Middleware

  /**
   * POST /login. `body` is None when either of the two decodes of the body,
   * as a user and as e-mail and password, fails; `found` is the store's answer to the lookup by
   * e-mail. The token is issued for the stored user's id and role.
   */
  function Login(hasher: Hasher, lib: Library, secret: string, now: int,
                 body: Option<Credentials>, found: Option<ObjectId>, s: Store): (r: Reply)
    requires body.Some? ==> FindsByEmail(s.users, body.value.email, found)
    ensures body.None? ==> r == Reply(BadRequest, Error(InvalidBody))
    ensures body.Some? && (forall k :: k in s.users ==> s.users[k].email != body.value.email) ==>
      r == Reply(Forbidden, Error(InvalidCredentials))
    ensures body.Some? && found.Some? && !hasher.matches(s.users[found.value].password, body.value.password) ==>
      r == Reply(Forbidden, Error(InvalidCredentials))
    ensures r.status == Forbidden ==> r.payload == Error(InvalidCredentials)
    ensures r.status == OK <==>
      && body.Some? && found.Some? && hasher.matches(s.users[found.value].password, body.value.password)
      && GenerateJwt(lib, secret, now, Hex(s.users[found.value].id), s.users[found.value].role).Some?
    ensures r.status == OK ==>
      var u := s.users[found.value];
      r.payload == TokenDoc(GenerateJwt(lib, secret, now, Hex(u.id), u.role).value)
    ensures body.Some? && found.Some? && hasher.matches(s.users[found.value].password, body.value.password) &&
            GenerateJwt(lib, secret, now, Hex(s.users[found.value].id), s.users[found.value].role).None? ==>
      r == Reply(InternalError, Error(TokenFailed))
  {
    match body
    case None => Reply(BadRequest, Error(InvalidBody))
    case Some(creds) =>
      match found
      case None => Reply(Forbidden, Error(InvalidCredentials))
      case Some(k) =>
        var u := s.users[k];
        if !hasher.matches(u.password, creds.password) then Reply(Forbidden, Error(InvalidCredentials))
        else match GenerateJwt(lib, secret, now, Hex(u.id), u.role)
          case None => Reply(InternalError, Error(TokenFailed))
          case Some(t) => Reply(OK, TokenDoc(t))
  }
}

=== FILE: middleware.dfy ===
/**
 * The bearer-token middleware (package middlewares): token issue, token
 * validation, and the gate in front of the protected routes. The process-wide
 * secret `config.JWTSecret` and the clock are parameters.
 *
 * Two versions are kept. The ...AsWritten members follow middleware.go, whose
 * tokens carry only `user_id` and whose gate stores only `Locals("user")`.
 * The others are the version the rest of the model uses: the token also
 * carries the role handlers/login.go passes, and the gate also stores
 * `Locals("user_id")` and `Locals("role")`, which handlers/user.go reads.
 */
module Middleware {
  import opened Wrappers
  import opened Json
  import opened Http
  import opened Jwt

  /** `len("Bearer ")`. */
  const PrefixLength: nat := 7

  /** 72 hours in seconds. */
  const TokenLifetime: int := 72 * 60 * 60

  /**
   * ValidateJWT: the token is accepted iff the library decodes it, its
   * algorithm is an HMAC one, its signature checks out under the secret and
   * its time claims hold now.
   */
  function ValidateJwt(lib: Library, secret: string, now: int, tokenString: string): (r: Option<Token>)
    ensures r.Some? ==> lib.decode(tokenString) == r
    ensures r.Some? <==>
      && lib.decode(tokenString).Some?
      && IsHmac(lib.decode(tokenString).value.alg)
      && lib.signatureValid(tokenString, secret)
      && TimeValid(lib.decode(tokenString).value.claims, now)
  {
    match lib.decode(tokenString)
    case None => None
    case Some(t) =>
      if !IsHmac(t.alg) then None
      else if !lib.signatureValid(tokenString, secret) then None
      else if !TimeValid(t.claims, now) then None
      else Some(t)
  }

  /** The claims GenerateJWT puts in a token as middleware.go writes it. */
  function IssuedClaimsAsWritten(userId: string, now: int): Claims
  {
    map["user_id" := Str(userId), "exp" := Num(now + TokenLifetime)]
  }

  /**
   * GenerateJWT as middleware.go writes it: one argument, the user id. It
   * fails exactly when signing fails, and a sound library reads back an
   * HS256 token carrying `user_id` and the 72-hour `exp` only.
   */
  function GenerateJwtAsWritten(lib: Library, secret: string, now: int, userId: string): (r: Option<string>)
    ensures r.None? <==> lib.sign(Token(HS256, IssuedClaimsAsWritten(userId, now)), secret).None?
    ensures SoundSigner(lib) && r.Some? ==>
      && lib.decode(r.value) == Some(Token(HS256, map["user_id" := Str(userId), "exp" := Num(now + TokenLifetime)]))
      && lib.signatureValid(r.value, secret)
  {
    lib.sign(Token(HS256, IssuedClaimsAsWritten(userId, now)), secret)
  }

  /** The claims of a token carrying the role login.go passes. */
  function IssuedClaims(userId: string, role: string, now: int): Claims
  {
    map["user_id" := Str(userId), "role" := Str(role), "exp" := Num(now + TokenLifetime)]
  }

  /**
   * GenerateJWT(userID, role), as handlers/login.go calls it: it fails
   * exactly when signing fails, and a sound library reads back an HS256 token
   * carrying `user_id`, `role` and the 72-hour `exp`.
   */
  function GenerateJwt(lib: Library, secret: string, now: int, userId: string, role: string): (r: Option<string>)
    ensures r.None? <==> lib.sign(Token(HS256, IssuedClaims(userId, role, now)), secret).None?
    ensures SoundSigner(lib) && r.Some? ==>
      && lib.decode(r.value) ==
         Some(Token(HS256, map["user_id" := Str(userId), "role" := Str(role), "exp" := Num(now + TokenLifetime)]))
      && lib.signatureValid(r.value, secret)
  {
    lib.sign(Token(HS256, IssuedClaims(userId, role, now)), secret)
  }

  /** The middleware's verdict: a 401, a panic, or the next handler with these locals. */
  datatype Auth = Rejected(failure: Failure) | Crashed | Forwarded(locals: Locals)

  /** What the header check decides before any locals are set. */
  datatype Gate = Refused(failure: Failure) | HeaderPanic | Admitted(token: Token)

  /**
   * The header handling shared by both versions: an empty header is refused;
   * otherwise the first seven characters are dropped unread (a shorter header
   * makes the slice panic) and the rest is validated.
   */
  function CheckHeader(lib: Library, secret: string, now: int, header: string): (r: Gate)
    ensures header == "" <==> r == Refused(MissingToken)
    ensures r.HeaderPanic? <==> 0 < |header| < PrefixLength
    ensures r.Admitted? <==>
      |header| >= PrefixLength && ValidateJwt(lib, secret, now, header[PrefixLength..]).Some?
    ensures r.Admitted? ==> Some(r.token) == ValidateJwt(lib, secret, now, header[PrefixLength..])
    ensures |header| >= PrefixLength && ValidateJwt(lib, secret, now, header[PrefixLength..]).None? ==>
      r == Refused(InvalidToken)
    ensures r.Refused? ==> r.failure in {MissingToken, InvalidToken}
  {
    if header == "" then Refused(MissingToken)
    else if |header| < PrefixLength then HeaderPanic
    else match ValidateJwt(lib, secret, now, header[PrefixLength..])
      case None => Refused(InvalidToken)
      case Some(t) => Admitted(t)
  }

  /** `c.Locals(key, claims[claim])`: a missing claim stores nil, which reads back as no value. */
  function Bind(locals: Locals, key: string, claims: Claims, claim: string): Locals
  {
    if claim in claims then locals[key := claims[claim]] else locals
  }

  /**
   * AuthMiddleware as middleware.go writes it: the header decides as in the
   * corrected version, but only `Locals("user")` is set, from `user_id`.
   */
  function AuthMiddlewareAsWritten(lib: Library, secret: string, now: int, header: string): (r: Auth)
    ensures header == "" ==> r == Rejected(MissingToken)
    ensures |header| >= PrefixLength && ValidateJwt(lib, secret, now, header[PrefixLength..]).None? ==>
      r == Rejected(InvalidToken)
    ensures r.Crashed? <==> 0 < |header| < PrefixLength
    ensures r.Rejected? ==> r.failure in {MissingToken, InvalidToken}
    ensures r.Forwarded? <==>
      |header| >= PrefixLength && ValidateJwt(lib, secret, now, header[PrefixLength..]).Some?
    ensures r.Forwarded? ==>
      var claims := ValidateJwt(lib, secret, now, header[PrefixLength..]).value.claims;
      && r.locals.Keys <= {"user"}
      && ("user" in r.locals <==> "user_id" in claims)
      && ("user_id" in claims ==> r.locals["user"] == claims["user_id"])
  {
    match CheckHeader(lib, secret, now, header)
    case Refused(f) => Rejected(f)
    case HeaderPanic => Crashed
    case Admitted(t) => Forwarded(Bind(map[], "user", t.claims, "user_id"))
  }

  /** AuthMiddleware setting `user` and `user_id` from the `user_id` claim and `role` from the `role` claim. */
  function AuthMiddleware(lib: Library, secret: string, now: int, header: string): (r: Auth)
    ensures header == "" ==> r == Rejected(MissingToken)
    ensures |header| >= PrefixLength && ValidateJwt(lib, secret, now, header[PrefixLength..]).None? ==>
      r == Rejected(InvalidToken)
    ensures r.Crashed? <==> 0 < |header| < PrefixLength
    ensures r.Forwarded? <==>
      |header| >= PrefixLength && ValidateJwt(lib, secret, now, header[PrefixLength..]).Some?
    ensures r.Forwarded? ==>
      var claims := ValidateJwt(lib, secret, now, header[PrefixLength..]).value.claims;
      && r.locals.Keys <= {"user", "user_id", "role"}
      && ("user" in r.locals <==> "user_id" in claims)
      && ("user_id" in r.locals <==> "user_id" in claims)
      && ("role" in r.locals <==> "role" in claims)
      && ("user_id" in claims ==> r.locals["user"] == claims["user_id"] && r.locals["user_id"] == claims["user_id"])
      && ("role" in claims ==> r.locals["role"] == claims["role"])
  {
    match CheckHeader(lib, secret, now, header)
    case Refused(f) => Rejected(f)
    case HeaderPanic => Crashed
    case Admitted(t) =>
      Forwarded(Bind(Bind(Bind(map[], "user", t.claims, "user_id"), "user_id", t.claims, "user_id"), "role", t.claims, "role"))
  }

  /** The seven characters in front of the token are never looked at. */
  lemma PrefixNotChecked(lib: Library, secret: string, now: int, p: string, q: string, t: string)
    requires |p| == PrefixLength && |q| == PrefixLength
    ensures AuthMiddleware(lib, secret, now, p + t) == AuthMiddleware(lib, secret, now, q + t)
    ensures AuthMiddlewareAsWritten(lib, secret, now, p + t) == AuthMiddlewareAsWritten(lib, secret, now, q + t)
  {
    assert (p + t)[PrefixLength..] == t;
    assert (q + t)[PrefixLength..] == t;
  }

  /**
   * A token the service issued at Unix time `now` (the clock is past the
   * epoch, so `exp` is not 0) passes the gate exactly until its 72 hours are
   * over, and hands the handlers the id and role it was issued for.
   */
  lemma IssuedTokenAuthenticates(lib: Library, secret: string, now: int, later: int, userId: string, role: string, t: string)
    requires SoundSigner(lib) && 0 <= now
    requires GenerateJwt(lib, secret, now, userId, role) == Some(t)
    ensures AuthMiddleware(lib, secret, later, "Bearer " + t) ==
      if later < now + TokenLifetime
      then Forwarded(map["user" := Str(userId), "user_id" := Str(userId), "role" := Str(role)])
      else Rejected(InvalidToken)
  {
    assert ("Bearer " + t)[PrefixLength..] == t;
    var claims := IssuedClaims(userId, role, now);
    assert lib.decode(t) == Some(Token(HS256, claims));
    assert "nbf" !in claims;
  }

  /** The same for the token middleware.go issues: the handlers get only `Locals("user")`. */
  lemma IssuedTokenAuthenticatesAsWritten(lib: Library, secret: string, now: int, later: int, userId: string, t: string)
    requires SoundSigner(lib) && 0 <= now
    requires GenerateJwtAsWritten(lib, secret, now, userId) == Some(t)
    ensures AuthMiddlewareAsWritten(lib, secret, later, "Bearer " + t) ==
      if later < now + TokenLifetime then Forwarded(map["user" := Str(userId)]) else Rejected(InvalidToken)
  {
    assert ("Bearer " + t)[PrefixLength..] == t;
    var claims := IssuedClaimsAsWritten(userId, now);
    assert lib.decode(t) == Some(Token(HS256, claims));
    assert "nbf" !in claims;
  }

  /** A validly signed HMAC token whose `exp` is 0 is read as having no expiry: it passes at any time. */
  lemma ZeroExpiryNeverExpires(lib: Library, secret: string, now: int, userId: string, t: string)
    requires lib.decode(t) == Some(Token(HS256, map["user_id" := Str(userId), "exp" := Num(0)]))
    requires lib.signatureValid(t, secret)
    ensures AuthMiddleware(lib, secret, now, "Bearer " + t) ==
      Forwarded(map["user" := Str(userId), "user_id" := Str(userId)])
  {
    assert ("Bearer " + t)[PrefixLength..] == t;
  }

  /** A token whose header names a non-HMAC algorithm is refused whatever its signature and claims. */
  lemma NonHmacRefused(lib: Library, secret: string, now: int, header: string)
    requires |header| >= PrefixLength
    requires lib.decode(header[PrefixLength..]).Some? && !IsHmac(lib.decode(header[PrefixLength..]).value.alg)
    ensures AuthMiddleware(lib, secret, now, header) == Rejected(InvalidToken)
    ensures AuthMiddlewareAsWritten(lib, secret, now, header) == Rejected(InvalidToken)
  {
  }
}

=== FILE: models.dfy ===
/**
 * The documents of the vocabulary API (package models) and the bounds their
 * `validate` struct tags declare, written as predicates. String lengths are
 * counted in characters, as the validator counts runes.
 */
module Models {
  import opened Wrappers
  import opened ObjectIds

  /** models.Collection: the create body and the stored document. */
  datatype Collection = Collection(
    id: ObjectId,
    name: Option<string>,
    description: Option<string>,
    userId: string)

  /** models.UpdateCollection: the sparse patch; it has no owner field. */
  datatype CollectionPatch = CollectionPatch(name: Option<string>, description: Option<string>)
  {
    predicate IsEmpty() { name.None? && description.None? }
  }

  /** models.Word: it has no owner field; its owner is its collection's. */
  datatype Word = Word(
    id: ObjectId,
    collectionId: ObjectId,
    word: string,
    translation: string,
    difficulty: int)

  /** models.UpdateWord: four optional fields. */
  datatype WordPatch = WordPatch(
    collectionId: Option<ObjectId>,
    difficulty: Option<int>,
    translation: Option<string>,
    word: Option<string>)
  {
    predicate IsEmpty() { collectionId.None? && difficulty.None? && translation.None? && word.None? }
  }

  /** models.User: the create body and the stored document. */
  datatype User = User(id: ObjectId, username: string, email: string, password: string, role: string)

  /** models.UserWithoutPassword: the only shape in which users leave the API. */
  datatype PublicUser = PublicUser(id: ObjectId, username: string, email: string, role: string)

  /** models.UpdateUser: three optional fields; there is no role field. */
  datatype UserPatch = UserPatch(username: Option<string>, email: Option<string>, password: Option<string>)
  {
    predicate IsEmpty() { username.None? && email.None? && password.None? }
  }

  /** The e-mail and password of a login body. */
  datatype Credentials = Credentials(email: string, password: string)

  predicate LengthIn(s: string, lo: nat, hi: nat) { lo <= |s| <= hi }

  /** `required,min=lo,max=hi` on a string pointer: present, and within bounds. */
  predicate RequiredLength(p: Option<string>, lo: nat, hi: nat) { p.Some? && LengthIn(p.value, lo, hi) }

  /** `omitempty,min=lo,max=hi` on a string pointer: a present value (even "") is bounds-checked. */
  predicate OptionalLength(p: Option<string>, lo: nat, hi: nat) { p.None? || LengthIn(p.value, lo, hi) }

  /** The tags of models.Collection; `_id` and `userId` carry none. */
  predicate ValidCollection(c: Collection)
  {
    RequiredLength(c.name, 3, 50) && RequiredLength(c.description, 3, 200)
  }

  /** The tags of models.UpdateCollection. */
  predicate ValidCollectionPatch(p: CollectionPatch)
  {
    OptionalLength(p.name, 3, 50) && OptionalLength(p.description, 3, 200)
  }

  /** The tags of models.Word: `required` on an ObjectID means non-zero. */
  predicate ValidWord(w: Word)
  {
    && w.collectionId != NilObjectId
    && LengthIn(w.word, 1, 50)
    && LengthIn(w.translation, 1, 100)
    && 1 <= w.difficulty <= 5
  }

  /** The tags of models.User; `isEmail` is the validator's `email` check. Role carries none. */
  predicate ValidUser(isEmail: string -> bool, u: User)
  {
    && LengthIn(u.username, 3, 50)
    && u.email != "" && isEmail(u.email)
    && |u.password| >= 6
  }

  /** The tags of models.UpdateUser (no handler checks them). */
  predicate ValidUserPatch(isEmail: string -> bool, p: UserPatch)
  {
    && OptionalLength(p.username, 3, 50)
    && (p.email.None? || isEmail(p.email.value))
    && (p.password.None? || |p.password.value| >= 6)
  }

  /** The projection the user handlers answer with. */
  function Public(u: User): PublicUser
  {
    PublicUser(u.id, u.username, u.email, u.role)
  }

  /** `$set` of the supplied fields of a collection patch. */
  function ApplyCollectionPatch(c: Collection, p: CollectionPatch): (r: Collection)
    ensures r.id == c.id && r.userId == c.userId
  {
    c.(name := if p.name.Some? then p.name else c.name,
       description := if p.description.Some? then p.description else c.description)
  }

  /** `$set` of the supplied fields of a word patch. */
  function ApplyWordPatch(w: Word, p: WordPatch): (r: Word)
    ensures r.id == w.id
  {
    Word(w.id,
         if p.collectionId.Some? then p.collectionId.value else w.collectionId,
         if p.word.Some? then p.word.value else w.word,
         if p.translation.Some? then p.translation.value else w.translation,
         if p.difficulty.Some? then p.difficulty.value else w.difficulty)
  }

  /** `$set` of the supplied fields of a user patch whose password is already hashed. */
  function ApplyUserPatch(u: User, p: UserPatch): (r: User)
    ensures r.id == u.id && r.role == u.role
  {
    User(u.id,
         if p.username.Some? then p.username.value else u.username,
         if p.email.Some? then p.email.value else u.email,
         if p.password.Some? then p.password.value else u.password,
         u.role)
  }

  /** A patch that passes its own tags keeps a valid collection valid. */
  lemma CollectionPatchKeepsValidity(c: Collection, p: CollectionPatch)
    requires ValidCollection(c) && ValidCollectionPatch(p)
    ensures ValidCollection(ApplyCollectionPatch(c, p))
  {
  }

  /** Word patches are not validated: a stored valid word can be patched out of bounds. */
  lemma WordPatchCanBreakValidity(w: Word)
    requires ValidWord(w)
    ensures !ValidWord(ApplyWordPatch(w, WordPatch(None, Some(9), None, None)))
    ensures !ValidWord(ApplyWordPatch(w, WordPatch(Some(NilObjectId), None, None, None)))
  {
  }
}

=== FILE: object_ids.dfy ===
/**
 * BSON ObjectIDs as the MongoDB driver handles them: twelve bytes, printed by
 * `Hex()` as 24 lower-case hex digits and parsed by `ObjectIDFromHex`, which
 * accepts exactly 24 hex digits of either case.
 */
module ObjectIds {
  import opened Wrappers

  type Byte = b: int | 0 <= b < 256

  /** An ObjectID: exactly twelve bytes. */
  type ObjectId = s: seq<Byte> | |s| == 12 witness [0, 0, 0, 0, 0, 0, 0, 0, 0, 0, 0, 0]

  /** The zero ObjectID: what an `_id` or `collectionId` that a body left out decodes to. */
  const NilObjectId: ObjectId := [0, 0, 0, 0, 0, 0, 0, 0, 0, 0, 0, 0]

  /** The lower-case digit encoding/hex writes for a nibble. */
  function HexDigit(n: int): char
    requires 0 <= n < 16
  {
    if n < 10 then ('0' as int + n) as char else ('a' as int + n - 10) as char
  }

  /** The value of a hex digit of either case; None for any other character. */
  function NibbleValue(c: char): (r: Option<int>)
    ensures r.Some? ==> 0 <= r.value < 16
  {
    if '0' <= c <= '9' then Some(c as int - '0' as int)
    else if 'a' <= c <= 'f' then Some(c as int - 'a' as int + 10)
    else if 'A' <= c <= 'F' then Some(c as int - 'A' as int + 10)
    else None
  }

  /** Lower-cases the hex letters A..F and keeps every other character. */
  function LowerHexChar(c: char): char
  {
    if 'A' <= c <= 'F' then (c as int - 'A' as int + 'a' as int) as char else c
  }

  function LowerHex(s: string): (r: string)
    ensures |r| == |s|
    ensures forall i :: 0 <= i < |s| ==> r[i] == LowerHexChar(s[i])
  {
    if s == [] then [] else [LowerHexChar(s[0])] + LowerHex(s[1..])
  }

  /** encoding/hex's EncodeToString. */
  function EncodeHex(bs: seq<Byte>): (s: string)
    ensures |s| == 2 * |bs|
  {
    if bs == [] then [] else [HexDigit(bs[0] / 16), HexDigit(bs[0] % 16)] + EncodeHex(bs[1..])
  }

  /** encoding/hex's Decode: pairs of hex digits of either case. */
  function DecodeHex(s: string): (r: Option<seq<Byte>>)
    ensures r.Some? ==> 2 * |r.value| == |s|
  {
    if |s| == 0 then Some([])
    else if |s| == 1 then None
    else match (NibbleValue(s[0]), NibbleValue(s[1]), DecodeHex(s[2..]))
      case (Some(hi), Some(lo), Some(rest)) => Some([hi * 16 + lo] + rest)
      case _ => None
  }

  /** `ObjectID.Hex()`. */
  function Hex(id: ObjectId): (s: string)
    ensures |s| == 24
  {
    EncodeHex(id)
  }

  /** `primitive.ObjectIDFromHex`: None stands for its error return. */
  function FromHex(s: string): (r: Option<ObjectId>)
    ensures r.Some? ==> |s| == 24
  {
    if |s| != 24 then None
    else match DecodeHex(s)
      case None => None
      case Some(bs) => Some(bs)
  }

  lemma {:induction false} DecodeEncode(bs: seq<Byte>)
    ensures DecodeHex(EncodeHex(bs)) == Some(bs)
  {
    if bs != [] {
      var s := EncodeHex(bs);
      DecodeEncode(bs[1..]);
      assert s[2..] == EncodeHex(bs[1..]);
      assert NibbleValue(s[0]) == Some(bs[0] / 16);
      assert NibbleValue(s[1]) == Some(bs[0] % 16);
      assert [bs[0]] + bs[1..] == bs;
    }
  }

  /** Parsing the printed form of an ObjectID gives it back. */
  lemma HexRoundTrip(id: ObjectId)
    ensures FromHex(Hex(id)) == Some(id)
  {
    DecodeEncode(id);
  }

  lemma {:induction false} EncodeDecode(s: string)
    requires DecodeHex(s).Some?
    ensures EncodeHex(DecodeHex(s).value) == LowerHex(s)
  {
    if |s| >= 2 {
      var hi := NibbleValue(s[0]).value;
      var lo := NibbleValue(s[1]).value;
      var rest := DecodeHex(s[2..]).value;
      EncodeDecode(s[2..]);
      var b := hi * 16 + lo;
      assert b / 16 == hi && b % 16 == lo;
      assert HexDigit(hi) == LowerHexChar(s[0]);
      assert HexDigit(lo) == LowerHexChar(s[1]);
      assert ([b] + rest)[1..] == rest;
      assert LowerHex(s) == [LowerHexChar(s[0]), LowerHexChar(s[1])] + LowerHex(s[2..]) by {
        assert LowerHex(s)[2..] == LowerHex(s[2..]);
      }
    }
  }

  /**
   * Printing a parsed ObjectID gives the lower-cased input: a path id with an
   * upper-case hex letter parses, but is not the string `Hex()` produces.
   */
  lemma FromHexCanonical(s: string)
    requires FromHex(s).Some?
    ensures Hex(FromHex(s).value) == LowerHex(s)
  {
    EncodeDecode(s);
  }

  lemma {:induction false} DecodeIgnoresCase(s: string)
    ensures DecodeHex(LowerHex(s)) == DecodeHex(s)
  {
    if |s| >= 2 {
      DecodeIgnoresCase(s[2..]);
      var l := LowerHex(s);
      assert l[2..] == LowerHex(s[2..]);
      assert NibbleValue(l[0]) == NibbleValue(s[0]);
      assert NibbleValue(l[1]) == NibbleValue(s[1]);
    } else if |s| == 1 {
      assert |LowerHex(s)| == 1;
    }
  }

  /** ObjectIDFromHex does not see the case of hex letters. */
  lemma FromHexIgnoresCase(s: string)
    ensures FromHex(LowerHex(s)) == FromHex(s)
  {
    DecodeIgnoresCase(s);
  }
}

=== FILE: passwords.dfy ===
/** bcrypt, as the handlers use it, abstracted to two functions. */
module Passwords {
  import opened Wrappers

  /**
   * `hash(p, salt)` is bcrypt.GenerateFromPassword with its random salt made
   * an argument (None is its error return, e.g. for a password over 72
   * bytes); `matches(h, p)` is CompareHashAndPassword(h, p) returning nil.
   */
  datatype Hasher = Hasher(hash: (string, nat) -> Option<string>, matches: (string, string) -> bool)

  /** A hash the hasher produced matches the password it was made from. */
  ghost predicate SoundHasher(h: Hasher)
  {
    forall p, salt :: h.hash(p, salt).Some? ==> h.matches(h.hash(p, salt).value, p)
  }
}

=== FILE: router.dfy ===
/**
 * router/router.go: which handler answers which route, and which routes sit
 * behind AuthMiddleware. A request is a Route value carrying its path
 * parameter and decoded body, plus what the environment contributes: the
 * generated id of an insert, the salt of a hash, the cursor order of a
 * listing, the store's answer to a lookup by e-mail.
 */
module Router {
  import opened Wrappers
  import opened ObjectIds
  import opened Models
  import opened Db
  import opened Http
  import opened Passwords
  import opened Jwt
  import opened Middleware
  import CollectionHandlers
  import WordHandlers
  import UserHandlers
  import LoginHandler

  /** The collaborators fixed at startup: the e-mail check, bcrypt, the JWT library and the secret. */
  datatype Env = Env(isEmail: string -> bool, hasher: Hasher, jwt: Library, secret: string)

  datatype Route =
    | GetCollections(order: seq<ObjectId>)
    | GetCollectionById(param: string)
    | Login(credentials: Option<Credentials>, found: Option<ObjectId>)
    | GetUsers(order: seq<ObjectId>)
    | GetUserById(param: string)
    | CreateUser(userBody: Body<User>, salt: nat, generated: ObjectId)
    | GetWordsByCollection(param: string, order: seq<ObjectId>)
    | CreateCollection(collectionBody: Body<Collection>, generated: ObjectId)
    | UpdateCollection(param: string, collectionPatch: Body<CollectionPatch>)
    | DeleteCollection(param: string)
    | UpdateUser(param: string, userPatch: Body<UserPatch>, salt: nat)
    | DeleteUser(param: string)
    | CreateWord(param: string, wordBody: Body<Word>, generated: ObjectId)
    | UpdateWord(param: string, wordPatch: Body<WordPatch>)
    | DeleteWord(param: string)

  /** The routes of the group mounted with AuthMiddleware. */
  predicate Protected(route: Route)
  {
    || route.CreateCollection? || route.UpdateCollection? || route.DeleteCollection?
    || route.UpdateUser? || route.DeleteUser?
    || route.CreateWord? || route.UpdateWord? || route.DeleteWord?
  }

  /** What the environment must have answered truthfully for a route. */
  predicate Coherent(route: Route, s: Store)
  {
    && (route.GetCollections? ==> Lists(route.order, s.collections))
    && (route.GetUsers? ==> Lists(route.order, s.users))
    && (route.GetWordsByCollection? ==> Lists(route.order, s.words))
    && (route.Login? && route.credentials.Some? ==> FindsByEmail(s.users, route.credentials.value.email, route.found))
  }

  /** A public route: its handler, with no middleware in front. */
  function ServePublic(env: Env, now: int, route: Route, s: Store): (r: Handled)
    requires !Protected(route) && Coherent(route, s)
    ensures r.reply.status != Unauthorized
    ensures !route.CreateUser? ==> r.store == s
    ensures Keyed(s) ==> Keyed(r.store)
  {
    match route
    case GetCollections(order) => Handled(CollectionHandlers.GetCollections(s, order), s)
    case GetCollectionById(id) => Handled(CollectionHandlers.GetCollectionById(id, s), s)
    case Login(creds, found) => Handled(LoginHandler.Login(env.hasher, env.jwt, env.secret, now, creds, found, s), s)
    case GetUsers(order) => Handled(UserHandlers.GetUsers(s, order), s)
    case GetUserById(id) => Handled(UserHandlers.GetUserById(id, s), s)
    case CreateUser(body, salt, generated) => UserHandlers.CreateUser(env.isEmail, env.hasher, body, salt, generated, s)
    case GetWordsByCollection(cid, order) => Handled(WordHandlers.GetWordsByCollection(cid, s, order), s)
  }

  /** A protected route's handler, run with the locals the middleware set. */
  function ServePrivate(env: Env, locals: Locals, route: Route, s: Store): (r: Handled)
    requires Protected(route)
    ensures r.reply.status != Unauthorized
    ensures Keyed(s) ==> Keyed(r.store)
  {
    match route
    case CreateCollection(body, generated) => CollectionHandlers.CreateCollection(locals, body, generated, s)
    case UpdateCollection(id, body) => CollectionHandlers.UpdateCollection(locals, id, body, s)
    case DeleteCollection(id) => CollectionHandlers.DeleteCollection(locals, id, s)
    case UpdateUser(id, body, salt) => UserHandlers.UpdateUser(env.hasher, locals, id, body, salt, s)
    case DeleteUser(id) => UserHandlers.DeleteUser(locals, id, s)
    case CreateWord(cid, body, generated) => WordHandlers.CreateWord(locals, cid, body, generated, s)
    case UpdateWord(id, body) => WordHandlers.UpdateWord(locals, id, body, s)
    case DeleteWord(id) => WordHandlers.DeleteWord(locals, id, s)
  }

  /**
   * The middleware's verdict applied to a protected route: a 401 or a panic
   * stops before the handler and leaves the store alone; only a forwarded
   * request reaches the handler, and the handlers never answer 401.
   */
  function Guarded(env: Env, auth: Auth, route: Route, s: Store): (r: Handled)
    requires Protected(route)
    ensures !auth.Forwarded? ==> r.store == s && r.reply.status in {Unauthorized, Panicked}
    ensures r.reply.status == Unauthorized <==> auth.Rejected?
    ensures auth.Forwarded? ==> r == ServePrivate(env, auth.locals, route, s)
  {
    match auth
    case Rejected(f) => Reject(Unauthorized, f, s)
    case Crashed => Crash(s)
    case Forwarded(locals) => ServePrivate(env, locals, route, s)
  }

  /**
   * One request against the store. A protected route without an
   * Authorization header, or with a token that does not validate, is a 401
   * that leaves the store alone; a public route never looks at the header.
   */
  function Serve(env: Env, now: int, header: string, route: Route, s: Store): (r: Handled)
    requires Coherent(route, s)
    ensures Protected(route) && header == "" ==> r == Reject(Unauthorized, MissingToken, s)
    ensures Protected(route) && |header| >= PrefixLength &&
            ValidateJwt(env.jwt, env.secret, now, header[PrefixLength..]).None? ==>
      r == Reject(Unauthorized, InvalidToken, s)
    ensures r.reply.status == Unauthorized <==>
      Protected(route) && AuthMiddleware(env.jwt, env.secret, now, header).Rejected?
    ensures Protected(route) && !AuthMiddleware(env.jwt, env.secret, now, header).Forwarded? ==> r.store == s
    ensures Protected(route) && AuthMiddleware(env.jwt, env.secret, now, header).Forwarded? ==>
      r == ServePrivate(env, AuthMiddleware(env.jwt, env.secret, now, header).locals, route, s)
    ensures !Protected(route) && !route.CreateUser? ==> r.store == s
    ensures Keyed(s) ==> Keyed(r.store)
  {
    if Protected(route) then Guarded(env, AuthMiddleware(env.jwt, env.secret, now, header), route, s)
    else ServePublic(env, now, route, s)
  }

  /** The same pipeline with the middleware as middleware.go writes it. */
  function ServeAsWritten(env: Env, now: int, header: string, route: Route, s: Store): (r: Handled)
    requires Coherent(route, s)
    ensures Protected(route) && header == "" ==> r == Reject(Unauthorized, MissingToken, s)
    ensures r.reply.status == Unauthorized <==>
      Protected(route) && AuthMiddlewareAsWritten(env.jwt, env.secret, now, header).Rejected?
    ensures Protected(route) && !AuthMiddlewareAsWritten(env.jwt, env.secret, now, header).Forwarded? ==> r.store == s
    ensures Protected(route) && AuthMiddlewareAsWritten(env.jwt, env.secret, now, header).Forwarded? ==>
      r == ServePrivate(env, AuthMiddlewareAsWritten(env.jwt, env.secret, now, header).locals, route, s)
    ensures !Protected(route) ==> r == ServePublic(env, now, route, s)
  {
    if Protected(route) then Guarded(env, AuthMiddlewareAsWritten(env.jwt, env.secret, now, header), route, s)
    else ServePublic(env, now, route, s)
  }

  /** Public routes answer the same whatever Authorization header comes with them. */
  lemma PublicRoutesIgnoreHeader(env: Env, now: int, h1: string, h2: string, route: Route, s: Store)
    requires !Protected(route) && Coherent(route, s)
    ensures Serve(env, now, h1, route, s) == Serve(env, now, h2, route, s)
  {
  }

  /**
   * As written, every authenticated request to PATCH or DELETE /users/:id
   * panics: the token's locals have no `role`, which the user handlers read
   * first.
   */
  lemma UserRoutesPanicAsWritten(env: Env, now: int, later: int, userId: string, t: string, route: Route, s: Store)
    requires SoundSigner(env.jwt)
    requires GenerateJwtAsWritten(env.jwt, env.secret, now, userId) == Some(t)
    requires 0 <= now && later < now + TokenLifetime
    requires route.UpdateUser? || route.DeleteUser?
    ensures ServeAsWritten(env, later, "Bearer " + t, route, s) == Crash(s)
  {
    IssuedTokenAuthenticatesAsWritten(env.jwt, env.secret, now, later, userId, t);
  }

  /**
   * With a token carrying the role, a user's own token deletes their own
   * record (and only that), and a non-admin's token is refused another's.
   */
  lemma IssuedTokenActsOnOwnUser(env: Env, now: int, later: int, k: ObjectId, other: ObjectId, role: string, t: string, s: Store)
    requires SoundSigner(env.jwt)
    requires GenerateJwt(env.jwt, env.secret, now, Hex(k), role) == Some(t)
    requires 0 <= now && later < now + TokenLifetime
    requires other != k && role != UserHandlers.AdminRole
    ensures Serve(env, later, "Bearer " + t, DeleteUser(Hex(k)), s) == Handled(Reply(OK, Message), s.(users := s.users - {k}))
    ensures Serve(env, later, "Bearer " + t, DeleteUser(Hex(other)), s) == Reject(Forbidden, NotAuthorized, s)
  {
    IssuedTokenAuthenticates(env.jwt, env.secret, now, later, Hex(k), role, t);
    HexRoundTrip(k);
    HexRoundTrip(other);
  }

  /**
   * Registering and then logging in with the same e-mail and password: the
   * user is stored with role "user", the lookup can only find them, and the
   * login answers with a token for their id and role.
   */
  lemma RegisterThenLogin(env: Env, now: int, u: User, salt: nat, generated: ObjectId, s: Store)
    requires SoundHasher(env.hasher)
    requires ValidUser(env.isEmail, u) && u.id == NilObjectId && generated !in s.users
    requires env.hasher.hash(u.password, salt).Some?
    requires forall k :: k in s.users ==> s.users[k].email != u.email
    requires GenerateJwt(env.jwt, env.secret, now, Hex(generated), UserHandlers.DefaultRole).Some?
    ensures
      var h := Serve(env, now, "", CreateUser(Parsed(u), salt, generated), s);
      && h.reply == Reply(Created, UserDoc(PublicUser(generated, u.username, u.email, UserHandlers.DefaultRole)))
      && (forall f :: FindsByEmail(h.store.users, u.email, f) ==> f == Some(generated))
      && Serve(env, now, "", Login(Some(Credentials(u.email, u.password)), Some(generated)), h.store).reply ==
         Reply(OK, TokenDoc(GenerateJwt(env.jwt, env.secret, now, Hex(generated), UserHandlers.DefaultRole).value))
  {
    var h := Serve(env, now, "", CreateUser(Parsed(u), salt, generated), s);
    assert h.store.users[generated].password == env.hasher.hash(u.password, salt).value;
    forall f | FindsByEmail(h.store.users, u.email, f)
      ensures f == Some(generated)
    {
      assert generated in h.store.users && h.store.users[generated].email == u.email;
    }
  }

  /**
   * The scenario of a logged-in owner: the token creates a collection owned
   * by its user id; without a header the delete is a 401, with another
   * user's token a 403, with the owner's token a 200, after which the
   * collection reads back as a server error.
   */
  lemma OwnerTokenCreatesAndDeletes(env: Env, now: int, later: int, userId: string, role: string, t: string,
                                    otherId: string, otherRole: string, t2: string,
                                    c: Collection, generated: ObjectId, s: Store)
    requires SoundSigner(env.jwt)
    requires GenerateJwt(env.jwt, env.secret, now, userId, role) == Some(t)
    requires GenerateJwt(env.jwt, env.secret, now, otherId, otherRole) == Some(t2)
    requires 0 <= now && later < now + TokenLifetime && otherId != userId
    requires ValidCollection(c) && c.id == NilObjectId && generated !in s.collections
    ensures
      var h := Serve(env, later, "Bearer " + t, CreateCollection(Parsed(c), generated), s);
      var del := DeleteCollection(Hex(generated));
      var gone := Serve(env, later, "Bearer " + t, del, h.store);
      && h.reply.status == Created && h.reply.payload.collection.userId == userId
      && Serve(env, later, "", del, h.store) == Reject(Unauthorized, MissingToken, h.store)
      && Serve(env, later, "Bearer " + t2, del, h.store) == Reject(Forbidden, NotAuthorized, h.store)
      && gone.reply == Reply(OK, Message)
      && Serve(env, later, "", GetCollectionById(Hex(generated)), gone.store).reply == Reply(InternalError, Error(InternalServer))
  {
    IssuedTokenAuthenticates(env.jwt, env.secret, now, later, userId, role, t);
    IssuedTokenAuthenticates(env.jwt, env.secret, now, later, otherId, otherRole, t2);
    HexRoundTrip(generated);
  }

  /**
   * After a user changes their password through PATCH /users/:id, and no
   * other user has the e-mail the record ends up with, every truthful lookup
   * of that e-mail finds them, and logging in with the new password succeeds.
   */
  lemma NewPasswordLogsIn(env: Env, now: int, header: string, k: ObjectId, patch: UserPatch, pw: string, salt: nat, s: Store)
    requires SoundHasher(env.hasher)
    requires k in s.users && patch.password == Some(pw)
    requires forall j :: j in s.users && j != k ==>
      s.users[j].email != (if patch.email.Some? then patch.email.value else s.users[k].email)
    requires Serve(env, now, header, UpdateUser(Hex(k), Parsed(patch), salt), s).reply.status == OK
    ensures
      var s' := Serve(env, now, header, UpdateUser(Hex(k), Parsed(patch), salt), s).store;
      k in s'.users &&
      var u := s'.users[k];
      && (forall found :: FindsByEmail(s'.users, u.email, found) ==> found == Some(k))
      && (GenerateJwt(env.jwt, env.secret, now, Hex(u.id), u.role).Some? ==>
            Serve(env, now, "", Login(Some(Credentials(u.email, pw)), Some(k)), s').reply ==
            Reply(OK, TokenDoc(GenerateJwt(env.jwt, env.secret, now, Hex(u.id), u.role).value)))
  {
    var auth := AuthMiddleware(env.jwt, env.secret, now, header);
    var h := Serve(env, now, header, UpdateUser(Hex(k), Parsed(patch), salt), s);
    assert h == UserHandlers.UpdateUser(env.hasher, auth.locals, Hex(k), Parsed(patch), salt, s);
    UserHandlers.PasswordUpdateStores(env.hasher, auth.locals, k, patch, pw, salt, s);
    var s' := h.store;
    forall j | j in s'.users && j != k
      ensures s'.users[j].email != s'.users[k].email
    {
    }
    LoginWithStoredPassword(env, now, k, pw, salt, s');
  }

  /**
   * A user whose stored hash was made from `pw`, and whose e-mail no other
   * user has, is what every truthful lookup of that e-mail finds, and logs in
   * with `pw`.
   */
  lemma LoginWithStoredPassword(env: Env, now: int, k: ObjectId, pw: string, salt: nat, s: Store)
    requires SoundHasher(env.hasher)
    requires k in s.users && env.hasher.hash(pw, salt) == Some(s.users[k].password)
    requires forall j :: j in s.users && j != k ==> s.users[j].email != s.users[k].email
    ensures
      var u := s.users[k];
      && (forall found :: FindsByEmail(s.users, u.email, found) ==> found == Some(k))
      && (GenerateJwt(env.jwt, env.secret, now, Hex(u.id), u.role).Some? ==>
            Serve(env, now, "", Login(Some(Credentials(u.email, pw)), Some(k)), s).reply ==
            Reply(OK, TokenDoc(GenerateJwt(env.jwt, env.secret, now, Hex(u.id), u.role).value)))
  {
    assert env.hasher.matches(s.users[k].password, pw);
  }
}

=== FILE: user_handlers.dfy ===
/**
 * handlers/user.go: the user routes. Users leave the API only as PublicUser;
 * a new user always gets role "user" and a hashed password; a user may be
 * changed or deleted by an admin or by the caller whose id string equals the
 * path parameter.
 */
module UserHandlers {
  import opened Wrappers
  import opened ObjectIds
  import opened Models
  import opened Db
  import opened Http
  import opened Passwords

  /** The role CreateUser forces on every new user. */
  const DefaultRole: string := "user"

  /** The role that may act on any user. */
  const AdminRole: string := "admin"

  /** The admin-or-self rule; "self" compares the token's id with the raw path string. */
  predicate MayActOnUser(role: string, caller: string, idStr: string)
  {
    role == AdminRole || caller == idStr
  }

  /** Neither a user's role nor the set of stored users changed. */
  predicate RolesKept(s: Store, s': Store)
  {
    forall k :: k in s'.users ==> k in s.users && s'.users[k].role == s.users[k].role
  }

  /** The projection loop of GetUsers. */
  function ProjectUsers(us: seq<User>): (r: seq<PublicUser>)
    ensures |r| == |us|
    ensures forall i :: 0 <= i < |us| ==> r[i] == Public(us[i])
  {
    if us == [] then [] else [Public(us[0])] + ProjectUsers(us[1..])
  }

  /** GET /users: every stored user in cursor order, without the password. */
  function GetUsers(s: Store, order: seq<ObjectId>): (r: Reply)
    requires Lists(order, s.users)
    ensures r.status == OK && r.payload.UserDocs?
    ensures |r.payload.userList| == |order| == |s.users|
    ensures forall i :: 0 <= i < |order| ==> r.payload.userList[i] == Public(s.users[order[i]])
  {
    ScanSize(order, s.users);
    Reply(OK, UserDocs(ProjectUsers(Fetch(order, s.users))))
  }

  /** GET /users/:id, without the password. A missing user is a 500. */
  function GetUserById(idStr: string, s: Store): (r: Reply)
    ensures FromHex(idStr).None? ==> r == Reply(BadRequest, Error(InvalidId))
    ensures FromHex(idStr).Some? && FromHex(idStr).value !in s.users ==> r == Reply(InternalError, Error(InternalServer))
    ensures r.status == OK <==> FromHex(idStr).Some? && FromHex(idStr).value in s.users
    ensures r.status == OK ==> r.payload == UserDoc(Public(s.users[FromHex(idStr).value]))
  {
    match FromHex(idStr)
    case None => Reply(BadRequest, Error(InvalidId))
    case Some(k) =>
      if k !in s.users then Reply(InternalError, Error(InternalServer))
      else Reply(OK, UserDoc(Public(s.users[k])))
  }

  /**
   * POST /users. A body that does not decode is returned as an error, which
   * Fiber answers with 500 (422 for an unsupported content type). Empty
   * fields, then bounds, are 400s; then the password is hashed and the role
   * forced to "user". Nothing is stored unless the reply is 201.
   */
  function CreateUser(isEmail: string -> bool, hasher: Hasher, body: Body<User>, salt: nat, generated: ObjectId, s: Store): (r: Handled)
    ensures body.Malformed? ==> r == Reject(InternalError, InvalidBody, s)
    ensures body.UnsupportedMedia? ==> r == Reject(UnprocessableEntity, InvalidBody, s)
    ensures body.Parsed? && (body.value.username == "" || body.value.email == "" || body.value.password == "") ==>
      r == Reject(BadRequest, MissingFields, s)
    ensures
      (body.Parsed? && body.value.username != "" && body.value.email != "" && body.value.password != "" &&
       !ValidUser(isEmail, body.value)) ==> r == Reject(BadRequest, ValidationFailed, s)
    ensures body.Parsed? && ValidUser(isEmail, body.value) && hasher.hash(body.value.password, salt).None? ==>
      r == Reject(InternalError, HashingFailed, s)
    ensures r.reply.status == Created <==>
      && body.Parsed? && ValidUser(isEmail, body.value) && hasher.hash(body.value.password, salt).Some?
      && InsertKey(body.value.id, generated) !in s.users
    ensures
      (&& body.Parsed? && ValidUser(isEmail, body.value) && hasher.hash(body.value.password, salt).Some?
       && InsertKey(body.value.id, generated) in s.users) ==> r == Reject(InternalError, InternalServer, s)
    ensures r.reply.status != Created ==> r.store == s
    ensures r.reply.status == Created ==>
      && r.reply.payload.UserDoc?
      && var p := r.reply.payload.user;
      && p.id == InsertKey(body.value.id, generated) && p.id !in s.users
      && p.username == body.value.username && p.email == body.value.email && p.role == DefaultRole
      && r.store == s.(users := s.users[p.id := User(p.id, p.username, p.email,
                                                    hasher.hash(body.value.password, salt).value, DefaultRole)])
    ensures Keyed(s) ==> Keyed(r.store)
  {
    match body
    case Malformed => Reject(InternalError, InvalidBody, s)
    case UnsupportedMedia => Reject(UnprocessableEntity, InvalidBody, s)
    case Parsed(u) =>
      if u.username == "" || u.email == "" || u.password == "" then Reject(BadRequest, MissingFields, s)
      else if !ValidUser(isEmail, u) then Reject(BadRequest, ValidationFailed, s)
      else match hasher.hash(u.password, salt)
        case None => Reject(InternalError, HashingFailed, s)
        case Some(h) =>
          var key := InsertKey(u.id, generated);
          if key in s.users then Reject(InternalError, InternalServer, s)
          else
            var stored := User(key, u.username, u.email, h, DefaultRole);
            Handled(Reply(Created, UserDoc(Public(stored))), s.(users := s.users[key := stored]))
  }

  /** The `$set` document UpdateUser builds: the password is hashed on the way; None if hashing fails. */
  function HashPatch(hasher: Hasher, p: UserPatch, salt: nat): (r: Option<UserPatch>)
    ensures r.Some? ==> r.value.IsEmpty() == p.IsEmpty()
  {
    match p.password
    case None => Some(p)
    case Some(pw) =>
      match hasher.hash(pw, salt)
      case None => None
      case Some(h) => Some(p.(password := Some(h)))
  }

  /** UpdateUser gets as far as its privilege check. */
  predicate UserPatchReachesPolicy(hasher: Hasher, locals: Locals, idStr: string, body: Body<UserPatch>, salt: nat)
  {
    && LocalString(locals, "role").Some? && FromHex(idStr).Some? && LocalString(locals, "user_id").Some?
    && body.Parsed? && HashPatch(hasher, body.value, salt).Some? && !body.value.IsEmpty()
  }

  /**
   * PATCH /users/:id. The checks run in the order role local, id, user_id
   * local, body, password hashing, empty patch, privileges, so hashing
   * failures and empty patches are reported to callers who may not act on
   * the user. The patch has no role field and no bounds are checked. The
   * reply carries the username, e-mail and role from before the write.
   */
  function UpdateUser(hasher: Hasher, locals: Locals, idStr: string, body: Body<UserPatch>, salt: nat, s: Store): (r: Handled)
    ensures LocalString(locals, "role").None? ==> r == Crash(s)
    ensures LocalString(locals, "role").Some? && FromHex(idStr).None? ==> r == Reject(BadRequest, InvalidId, s)
    ensures LocalString(locals, "role").Some? && FromHex(idStr).Some? && LocalString(locals, "user_id").None? ==>
      r == Crash(s)
    ensures LocalString(locals, "role").Some? && FromHex(idStr).Some? && LocalString(locals, "user_id").Some? ==>
      && (!body.Parsed? ==> r == Reject(BadRequest, InvalidBody, s))
      && (body.Parsed? && HashPatch(hasher, body.value, salt).None? ==> r == Reject(InternalError, HashingFailed, s))
      && (body.Parsed? && HashPatch(hasher, body.value, salt).Some? && body.value.IsEmpty() ==>
            r == Reject(BadRequest, NoFieldsToUpdate, s))
    ensures r.reply.status == Forbidden <==>
      && UserPatchReachesPolicy(hasher, locals, idStr, body, salt)
      && !MayActOnUser(LocalString(locals, "role").value, LocalString(locals, "user_id").value, idStr)
    ensures r.reply.status == OK <==>
      && UserPatchReachesPolicy(hasher, locals, idStr, body, salt)
      && MayActOnUser(LocalString(locals, "role").value, LocalString(locals, "user_id").value, idStr)
      && FromHex(idStr).value in s.users
    ensures
      (&& UserPatchReachesPolicy(hasher, locals, idStr, body, salt)
       && MayActOnUser(LocalString(locals, "role").value, LocalString(locals, "user_id").value, idStr)
       && FromHex(idStr).value !in s.users) ==> r == Reject(InternalError, InternalServer, s)
    ensures r.reply.status != OK ==> r.store == s
    ensures r.reply.status == OK ==>
      var k := FromHex(idStr).value;
      var before := s.users[k];
      && r.reply.payload == UserDoc(PublicUser(k, before.username, before.email, before.role))
      && r.store == s.(users := s.users[k := ApplyUserPatch(before, HashPatch(hasher, body.value, salt).value)])
    ensures RolesKept(s, r.store) && r.store.users.Keys == s.users.Keys
    ensures Keyed(s) ==> Keyed(r.store)
  {
    match LocalString(locals, "role")
    case None => Crash(s)
    case Some(role) =>
      match FromHex(idStr)
      case None => Reject(BadRequest, InvalidId, s)
      case Some(k) =>
        match LocalString(locals, "user_id")
        case None => Crash(s)
        case Some(caller) =>
          if !body.Parsed? then Reject(BadRequest, InvalidBody, s)
          else match HashPatch(hasher, body.value, salt)
            case None => Reject(InternalError, HashingFailed, s)
            case Some(patch) =>
              if patch.IsEmpty() then Reject(BadRequest, NoFieldsToUpdate, s)
              else if !MayActOnUser(role, caller, idStr) then Reject(Forbidden, NotAuthorized, s)
              else if k !in s.users then Reject(InternalError, InternalServer, s)
              else
                var before := s.users[k];
                Handled(Reply(OK, UserDoc(PublicUser(k, before.username, before.email, before.role))),
                        s.(users := s.users[k := ApplyUserPatch(before, patch)]))
  }

  /**
   * DELETE /users/:id. There is no existence check: an authorized delete of
   * an id nobody has answers 200. The user's collections stay.
   */
  function DeleteUser(locals: Locals, idStr: string, s: Store): (r: Handled)
    ensures LocalString(locals, "role").None? || LocalString(locals, "user_id").None? ==> r == Crash(s)
    ensures LocalString(locals, "role").Some? && LocalString(locals, "user_id").Some? && FromHex(idStr).None? ==>
      r == Reject(BadRequest, InvalidId, s)
    ensures r.reply.status == Forbidden <==>
      && LocalString(locals, "role").Some? && LocalString(locals, "user_id").Some? && FromHex(idStr).Some?
      && !MayActOnUser(LocalString(locals, "role").value, LocalString(locals, "user_id").value, idStr)
    ensures r.reply.status == OK <==>
      && LocalString(locals, "role").Some? && LocalString(locals, "user_id").Some? && FromHex(idStr).Some?
      && MayActOnUser(LocalString(locals, "role").value, LocalString(locals, "user_id").value, idStr)
    ensures r.reply.status != OK ==> r.store == s
    ensures r.reply.status == OK ==>
      r.reply.payload == Message && r.store == s.(users := s.users - {FromHex(idStr).value})
    ensures r.store.collections == s.collections && r.store.words == s.words
    ensures Keyed(s) ==> Keyed(r.store)
  {
    match LocalString(locals, "role")
    case None => Crash(s)
    case Some(role) =>
      match LocalString(locals, "user_id")
      case None => Crash(s)
      case Some(caller) =>
        match FromHex(idStr)
        case None => Reject(BadRequest, InvalidId, s)
        case Some(k) =>
          if !MayActOnUser(role, caller, idStr) then Reject(Forbidden, NotAuthorized, s)
          else Handled(Reply(OK, Message), s.(users := s.users - {k}))
  }

  /**
   * A successful PATCH /users/:id that sends a password stores that
   * password's hash on the addressed record and leaves every other user as it was.
   */
  lemma PasswordUpdateStores(hasher: Hasher, locals: Locals, k: ObjectId, patch: UserPatch, pw: string, salt: nat, s: Store)
    requires patch.password == Some(pw)
    requires UpdateUser(hasher, locals, Hex(k), Parsed(patch), salt, s).reply.status == OK
    ensures
      var s' := UpdateUser(hasher, locals, Hex(k), Parsed(patch), salt, s).store;
      && k in s.users && k in s'.users && hasher.hash(pw, salt).Some?
      && s'.users[k] == ApplyUserPatch(s.users[k], patch.(password := hasher.hash(pw, salt)))
      && (forall j :: j in s'.users && j != k ==> j in s.users && s'.users[j] == s.users[j])
      && s'.users.Keys == s.users.Keys
  {
    HexRoundTrip(k);
  }

  /** `s'` holds the same documents as `s` except, possibly, for the users' passwords. */
  predicate SameButPasswords(s: Store, s': Store)
  {
    && s'.collections == s.collections && s'.words == s.words && s'.users.Keys == s.users.Keys
    && forall k :: k in s.users ==> s'.users[k] == s.users[k].(password := s'.users[k].password)
  }

  /** The read routes' answers do not depend on any stored password. */
  lemma PasswordsNeverLeak(s: Store, s': Store, order: seq<ObjectId>, idStr: string)
    requires SameButPasswords(s, s')
    requires Lists(order, s.users)
    ensures Lists(order, s'.users)
    ensures GetUsers(s, order) == GetUsers(s', order)
    ensures GetUserById(idStr, s) == GetUserById(idStr, s')
  {
    var a := GetUsers(s, order).payload.userList;
    var b := GetUsers(s', order).payload.userList;
    forall i | 0 <= i < |a|
      ensures a[i] == b[i]
    {
      assert Public(s.users[order[i]]) == Public(s'.users[order[i]]);
    }
  }

  /**
   * A non-admin's self check compares raw strings, so addressing one's own
   * record with upper-case hex digits, which parses to the same ObjectID, is
   * refused.
   */
  lemma UpperCaseSelfIdRefused(locals: Locals, idStr: string, k: ObjectId, s: Store)
    requires FromHex(idStr) == Some(k) && LowerHex(idStr) != idStr
    requires LocalString(locals, "user_id") == Some(Hex(k))
    requires LocalString(locals, "role").Some? && LocalString(locals, "role") != Some(AdminRole)
    ensures DeleteUser(locals, idStr, s) == Reject(Forbidden, NotAuthorized, s)
    ensures DeleteUser(locals, Hex(k), s).reply.status == OK
  {
    FromHexCanonical(idStr);
    HexRoundTrip(k);
  }

  /** UpdateUser applies none of models.UpdateUser's bounds: an admin can blank a username, which those bounds forbid. */
  lemma UsernameBoundsUnchecked(isEmail: string -> bool, hasher: Hasher, locals: Locals, idStr: string, salt: nat, s: Store)
    requires LocalString(locals, "role") == Some(AdminRole) && LocalString(locals, "user_id").Some?
    requires FromHex(idStr).Some? && FromHex(idStr).value in s.users
    ensures
      var patch := UserPatch(Some(""), None, None);
      var r := UpdateUser(hasher, locals, idStr, Parsed(patch), salt, s);
      && !ValidUserPatch(isEmail, patch)
      && r.reply.status == OK && r.store.users[FromHex(idStr).value].username == ""
  {
  }
}

=== FILE: word_handlers.dfy ===
/**
 * handlers/word.go: the word routes. A word has no owner of its own; every
 * mutation resolves it in two hops, from the word to its collection and from
 * the collection to its owner, and applies the collection owner-only rule.
 */
module WordHandlers {
  import opened Wrappers
  import opened ObjectIds
  import opened Models
  import opened Db
  import opened Http
  import opened CollectionHandlers

  /** The owner of the word filed under `k`: None when the word or its collection is not stored. */
  function WordOwner(s: Store, k: ObjectId): Option<string>
  {
    if k in s.words && s.words[k].collectionId in s.collections
    then Some(s.collections[s.words[k].collectionId].userId)
    else None
  }

  /** GET /collections/:collectionId/words: exactly the stored words filed under that collection id. */
  function GetWordsByCollection(cidStr: string, s: Store, order: seq<ObjectId>): (r: Reply)
    requires Lists(order, s.words)
    ensures FromHex(cidStr).None? ==> r == Reply(BadRequest, Error(InvalidId))
    ensures FromHex(cidStr).Some? ==>
      && r.status == OK && r.payload.WordDocs?
      && (forall w :: w in r.payload.wordList <==> w in s.words.Values && w.collectionId == FromHex(cidStr).value)
      && (Keyed(s) ==> Distinct(r.payload.wordList))
  {
    match FromHex(cidStr)
    case None => Reply(BadRequest, Error(InvalidId))
    case Some(cid) =>
      ScanCoversValues(order, s.words);
      if Keyed(s) then
        assert forall i, j :: 0 <= i < j < |order| ==> s.words[order[i]] != s.words[order[j]] by {
          forall i, j | 0 <= i < j < |order| ensures s.words[order[i]].id != s.words[order[j]].id { }
        }
        Reply(OK, WordDocs(FetchWhere(order, s.words, (w: Word) => w.collectionId == cid)))
      else
        Reply(OK, WordDocs(FetchWhere(order, s.words, (w: Word) => w.collectionId == cid)))
  }

  /** CreateWord gets past every check that precedes its store read. */
  predicate WordReachesStore(locals: Locals, cidStr: string, body: Body<Word>)
  {
    FromHex(cidStr).Some? && body.Parsed? && ValidWord(body.value) && LocalString(locals, "user").Some?
  }

  /**
   * POST /collections/:collectionId/words. The body is validated as sent
   * (so its own `collectionId` must be non-zero), then that id is replaced by
   * the path's; only the owner of the path's collection may add words.
   */
  function CreateWord(locals: Locals, cidStr: string, body: Body<Word>, generated: ObjectId, s: Store): (r: Handled)
    ensures FromHex(cidStr).None? ==> r == Reject(BadRequest, InvalidId, s)
    ensures FromHex(cidStr).Some? && !body.Parsed? ==> r == Reject(BadRequest, InvalidBody, s)
    ensures FromHex(cidStr).Some? && body.Parsed? && !ValidWord(body.value) ==> r == Reject(BadRequest, ValidationFailed, s)
    ensures FromHex(cidStr).Some? && body.Parsed? && ValidWord(body.value) && LocalString(locals, "user").None? ==>
      r == Crash(s)
    ensures WordReachesStore(locals, cidStr, body) && FromHex(cidStr).value !in s.collections ==>
      r == Reject(InternalError, InternalServer, s)
    ensures r.reply.status == Forbidden <==>
      && WordReachesStore(locals, cidStr, body) && FromHex(cidStr).value in s.collections
      && !IsOwner(s.collections[FromHex(cidStr).value], LocalString(locals, "user").value)
    ensures r.reply.status == Created <==>
      && WordReachesStore(locals, cidStr, body) && FromHex(cidStr).value in s.collections
      && IsOwner(s.collections[FromHex(cidStr).value], LocalString(locals, "user").value)
      && InsertKey(body.value.id, generated) !in s.words
    ensures
      (&& WordReachesStore(locals, cidStr, body) && FromHex(cidStr).value in s.collections
       && IsOwner(s.collections[FromHex(cidStr).value], LocalString(locals, "user").value)
       && InsertKey(body.value.id, generated) in s.words) ==> r == Reject(InternalError, InternalServer, s)
    ensures r.reply.status != Created ==> r.store == s
    ensures r.reply.status == Created ==>
      && r.reply.payload.WordDoc?
      && var w := r.reply.payload.word;
      && w.collectionId == FromHex(cidStr).value
      && w.id == InsertKey(body.value.id, generated) && w.id !in s.words
      && w.word == body.value.word && w.translation == body.value.translation
      && w.difficulty == body.value.difficulty
      && r.store == s.(words := s.words[w.id := w])
    ensures r.store.collections == s.collections && r.store.users == s.users
    ensures Keyed(s) ==> Keyed(r.store)
  {
    match FromHex(cidStr)
    case None => Reject(BadRequest, InvalidId, s)
    case Some(cid) =>
      if !body.Parsed? then Reject(BadRequest, InvalidBody, s)
      else if !ValidWord(body.value) then Reject(BadRequest, ValidationFailed, s)
      else match LocalString(locals, "user")
        case None => Crash(s)
        case Some(caller) =>
          if cid !in s.collections then Reject(InternalError, InternalServer, s)
          else if !IsOwner(s.collections[cid], caller) then Reject(Forbidden, NotAuthorized, s)
          else
            var key := InsertKey(body.value.id, generated);
            if key in s.words then Reject(InternalError, InternalServer, s)
            else
              var stored := body.value.(collectionId := cid, id := key);
              Handled(Reply(Created, WordDoc(stored)), s.(words := s.words[key := stored]))
  }

  /** UpdateWord gets past every check that precedes its store reads. */
  predicate WordPatchReachesStore(locals: Locals, idStr: string, body: Body<WordPatch>)
  {
    FromHex(idStr).Some? && body.Parsed? && !body.value.IsEmpty() && LocalString(locals, "user").Some?
  }

  /** The caller owns the word's current collection, so UpdateWord writes. */
  predicate WordPatchAuthorized(locals: Locals, idStr: string, body: Body<WordPatch>, s: Store)
  {
    && WordPatchReachesStore(locals, idStr, body)
    && WordOwner(s, FromHex(idStr).value) == LocalString(locals, "user")
  }

  /**
   * PATCH /words/:id. No bounds are checked, and a new `collectionId` is
   * written without looking at the destination. The success reply
   * dereferences word, translation and difficulty, so a patch that leaves
   * one of them out panics after the write; the reply reports the word's
   * collection id from before the write.
   */
  function UpdateWord(locals: Locals, idStr: string, body: Body<WordPatch>, s: Store): (r: Handled)
    ensures FromHex(idStr).None? ==> r == Reject(BadRequest, InvalidId, s)
    ensures FromHex(idStr).Some? && !body.Parsed? ==> r == Reject(BadRequest, InvalidBody, s)
    ensures FromHex(idStr).Some? && body.Parsed? && body.value.IsEmpty() ==> r == Reject(BadRequest, NoFieldsToUpdate, s)
    ensures FromHex(idStr).Some? && body.Parsed? && !body.value.IsEmpty() && LocalString(locals, "user").None? ==>
      r == Crash(s)
    ensures WordPatchReachesStore(locals, idStr, body) && WordOwner(s, FromHex(idStr).value).None? ==>
      r == Reject(InternalError, InternalServer, s)
    ensures r.reply.status == Forbidden <==>
      && WordPatchReachesStore(locals, idStr, body) && WordOwner(s, FromHex(idStr).value).Some?
      && WordOwner(s, FromHex(idStr).value) != LocalString(locals, "user")
    ensures !WordPatchAuthorized(locals, idStr, body, s) ==> r.store == s
    ensures WordPatchAuthorized(locals, idStr, body, s) ==>
      var k := FromHex(idStr).value;
      r.store == s.(words := s.words[k := ApplyWordPatch(s.words[k], body.value)])
    ensures r.reply.status == OK <==>
      && WordPatchAuthorized(locals, idStr, body, s)
      && body.value.word.Some? && body.value.translation.Some? && body.value.difficulty.Some?
    ensures WordPatchAuthorized(locals, idStr, body, s) &&
            (body.value.word.None? || body.value.translation.None? || body.value.difficulty.None?) ==>
      r.reply == Reply(Panicked, NoPayload)
    ensures r.reply.status == OK ==>
      var k := FromHex(idStr).value;
      var p := body.value;
      r.reply.payload == WordDoc(Word(k, s.words[k].collectionId, p.word.value, p.translation.value, p.difficulty.value))
    ensures r.store.collections == s.collections && r.store.users == s.users
    ensures Keyed(s) ==> Keyed(r.store)
  {
    match FromHex(idStr)
    case None => Reject(BadRequest, InvalidId, s)
    case Some(k) =>
      if !body.Parsed? then Reject(BadRequest, InvalidBody, s)
      else if body.value.IsEmpty() then Reject(BadRequest, NoFieldsToUpdate, s)
      else match LocalString(locals, "user")
        case None => Crash(s)
        case Some(caller) =>
          if k !in s.words then Reject(InternalError, InternalServer, s)
          else
            var before := s.words[k];
            if before.collectionId !in s.collections then Reject(InternalError, InternalServer, s)
            else if !IsOwner(s.collections[before.collectionId], caller) then Reject(Forbidden, NotAuthorized, s)
            else
              var p := body.value;
              var after := s.(words := s.words[k := ApplyWordPatch(before, p)]);
              if p.word.None? || p.translation.None? || p.difficulty.None? then Handled(Reply(Panicked, NoPayload), after)
              else Handled(Reply(OK, WordDoc(Word(k, before.collectionId, p.word.value, p.translation.value, p.difficulty.value))), after)
  }

  /** DELETE /words/:id: two-hop owner resolution, then removal of that word only. */
  function DeleteWord(locals: Locals, idStr: string, s: Store): (r: Handled)
    ensures FromHex(idStr).None? ==> r == Reject(BadRequest, InvalidId, s)
    ensures FromHex(idStr).Some? && LocalString(locals, "user").None? ==> r == Crash(s)
    ensures FromHex(idStr).Some? && LocalString(locals, "user").Some? && WordOwner(s, FromHex(idStr).value).None? ==>
      r == Reject(InternalError, InternalServer, s)
    ensures r.reply.status == Forbidden <==>
      && FromHex(idStr).Some? && LocalString(locals, "user").Some? && WordOwner(s, FromHex(idStr).value).Some?
      && WordOwner(s, FromHex(idStr).value) != LocalString(locals, "user")
    ensures r.reply.status == OK <==>
      && FromHex(idStr).Some? && LocalString(locals, "user").Some?
      && WordOwner(s, FromHex(idStr).value) == LocalString(locals, "user")
    ensures r.reply.status != OK ==> r.store == s
    ensures r.reply.status == OK ==>
      r.reply.payload == Message && r.store == s.(words := s.words - {FromHex(idStr).value})
    ensures Keyed(s) ==> Keyed(r.store)
  {
    match FromHex(idStr)
    case None => Reject(BadRequest, InvalidId, s)
    case Some(k) =>
      match LocalString(locals, "user")
      case None => Crash(s)
      case Some(caller) =>
        if k !in s.words then Reject(InternalError, InternalServer, s)
        else
          var cid := s.words[k].collectionId;
          if cid !in s.collections then Reject(InternalError, InternalServer, s)
          else if !IsOwner(s.collections[cid], caller) then Reject(Forbidden, NotAuthorized, s)
          else Handled(Reply(OK, Message), s.(words := s.words - {k}))
  }

  /** The `collectionId` a create body sends matters only in being non-zero: the path's id is stored. */
  lemma BodyCollectionIdIgnored(locals: Locals, cidStr: string, w: Word, other: ObjectId, generated: ObjectId, s: Store)
    requires w.collectionId != NilObjectId && other != NilObjectId
    ensures CreateWord(locals, cidStr, Parsed(w.(collectionId := other)), generated, s) ==
            CreateWord(locals, cidStr, Parsed(w), generated, s)
  {
  }

  /**
   * Moving a word to another collection is authorized against its current
   * collection only: the destination need not exist or belong to the caller,
   * the word's owner becomes the destination's, and a patch with only a
   * `collectionId` panics after the write.
   */
  lemma ReparentingUnchecked(locals: Locals, idStr: string, dest: ObjectId, s: Store)
    requires FromHex(idStr).Some? && LocalString(locals, "user").Some?
    requires WordOwner(s, FromHex(idStr).value) == LocalString(locals, "user")
    ensures
      var k := FromHex(idStr).value;
      var r := UpdateWord(locals, idStr, Parsed(WordPatch(Some(dest), None, None, None)), s);
      && r.reply.status == Panicked
      && r.store.words[k].collectionId == dest
      && WordOwner(r.store, k) == (if dest in s.collections then Some(s.collections[dest].userId) else None)
  {
  }

  /** A patch is stored without bounds checks: here a difficulty outside 1..5. */
  lemma DifficultyUnchecked(locals: Locals, idStr: string, word: string, translation: string, s: Store)
    requires FromHex(idStr).Some? && LocalString(locals, "user").Some?
    requires WordOwner(s, FromHex(idStr).value) == LocalString(locals, "user")
    ensures
      var r := UpdateWord(locals, idStr, Parsed(WordPatch(None, Some(99), Some(translation), Some(word))), s);
      r.reply.status == OK && r.store.words[FromHex(idStr).value].difficulty == 99
  {
  }

  /**
   * Deleting a collection leaves its words stored and listed, but nobody can
   * change or delete them any more: their owner resolves to nothing.
   */
  lemma OrphanedWordsStay(owner: Locals, cidStr: string, order: seq<ObjectId>, s: Store, wordId: ObjectId, anyone: Locals, p: WordPatch)
    requires DeleteCollection(owner, cidStr, s).reply.status == OK
    requires Lists(order, s.words)
    requires wordId in s.words && Some(s.words[wordId].collectionId) == FromHex(cidStr)
    requires LocalString(anyone, "user").Some?
    requires !p.IsEmpty()
    ensures
      var s' := DeleteCollection(owner, cidStr, s).store;
      && GetWordsByCollection(cidStr, s', order) == GetWordsByCollection(cidStr, s, order)
      && UpdateWord(anyone, Hex(wordId), Parsed(p), s') == Reject(InternalError, InternalServer, s')
      && DeleteWord(anyone, Hex(wordId), s') == Reject(InternalError, InternalServer, s')
  {
    HexRoundTrip(wordId);
  }
}

=== FILE: wrappers.dfy ===
/** The optional-value datatype used throughout the model. */
module Wrappers {

  /** A value that may be absent: a nil pointer field, a missing document, a failed parse. */
  datatype Option<+T> = None | Some(value: T)
}
